=== FILE: README.md ===
# ARKit example: placement engine and session manager in Dafny

This project models the two components of the ARKit example app that make
decisions: `ARVirtualObjectManager` and `ARSessionManager`.

`ARVirtualObjectManager` places the single virtual object. It has four parts:

- **Hit-test cascade.** It turns a screen point into a world position by a fixed five-stage fallback. The stages are existing planes within their extent, then high-quality feature points, then the infinite horizontal plane, then the remembered feature hit, then unfiltered feature points.
- **Placement and smoothing.** It places the object immediately or incrementally, never more than 10 m from the camera. A history of the last 10 camera distances can smooth the apparent distance.
- **Snap to plane.** It drops the object onto a freshly refined plane when the object lies over the plane's extent, widened by 10%, and within 3 cm of it vertically.
- **Loading guard.** While a model loads, choosing another object or restarting is refused.

`ARSessionManager` keeps the following:

- the registry of detected planes, keyed by anchor;
- the session configuration and every `run` it is given;
- the tracking-quality state machine. After 10 s of limited tracking it can fall back from world tracking (6DOF) to orientation-only tracking (3DOF);
- the classification of session errors into recoverable and fatal;
- the guarded restart sequence.

Everything is modelled as pure functions over immutable records. Each callback is a function from the manager's state to the next state. Whatever ARKit, SceneKit, UIKit or the run loop supply comes in as an input, as follows:

- the answers of the ray casts;
- the camera position of the current frame;
- the conversion of a position into an anchor's frame;
- timer firings and the end of the restart cool-down, as explicit events.

Modules, one per file:

- `Wrappers` (`wrappers.dfy`): `Option`, standing for Swift optionals.
- `Vectors` (`vectors.dfy`): `SCNVector3` over reals, and `setLength` / `setMaximumLength` / `normalized`.
  - Dafny has no square root. A vector's length is therefore passed in together with the precondition `IsLengthOf(len, v)`, meaning `len >= 0` and `len * len == v·v`. Exactly one value meets it.
  - "Same direction" means a strictly positive multiple.
- `Scene` (`scene.dfy`): plane anchors and the camera position of a frame.
- `DistanceHistory` (`history.dfy`): `keepLast`, the sum and `average` of the distance history.
- `TextFeedback` (`feedback.dfy`): the shared text manager.
  - It holds the scheduled message types, each with its delay, plus the alert on screen and the blur flag.
  - Scheduling a type replaces the earlier message of that type.
- `HitTestCascade` (`hit_test.dfy`): `worldPositionFromScreenPosition`, plus an independent stage-list reading of it.
- `VirtualObjectManager` (`object_manager.dfy`): the rest of `ARVirtualObjectManager`.
- `PlacementProperties` (`placement_props.dfy`): properties of placement over several calls.
- `SessionManager` (`session.dfy`): `ARSessionManager`, with an `Event` type and a `Step` function. `InitialSession` is the manager as constructed. `Launched` is the manager once the view has loaded (`ViewController.viewDidLoad`): the focus-square prompt is scheduled, the saved settings are applied, which runs the session once, and the object is reset. The events include the view appearing, which starts the session through `restartPlaneDetection` (`ViewController.viewDidAppear`). With 3DOF tracking saved in the settings, that start keeps the orientation-only configuration and detects no planes.
- `SessionProperties` (`session_props.dfy`): the state invariant for every reachable state, and the timer and restart properties.

Timers are modelled by three things:

- the handle the manager holds (`trackingFallbackTimer`);
- the set of live timers, meaning scheduled and neither fired nor invalidated;
- a counter that names new timers.

This makes the source's behaviour on re-entering limited tracking visible. The new timer overwrites the held handle, and the old timer is not invalidated. `SessionProperties.OverwrittenTimerOutlivesRecovery` proves the consequence: after limited, limited, normal, the first timer is still live, and when it fires the app switches to 3DOF tracking even though tracking has recovered.

Setting `use3DOFTracking` to `false` keeps the current configuration. So once the fallback has installed an orientation-only configuration, no later restart re-enables plane detection or re-runs the session from scratch (`SessionProperties.FallbackSurvivesRestart`).

## Model

| member | source | states |
|---|---|---|
| `Vectors.SetMaximumLength` | ARKitExample/ARVirtualObjectManager.swift:247-248 | the clamped vector has length min(len, 10 m), points the same way, and is the input itself when no longer than the limit |
| `Vectors.SetLength` | ARKitExample/ARVirtualObjectManager.swift:285 | a non-zero vector stretched to a non-negative target has exactly that length and, for a positive target, keeps its direction; the zero vector is left alone |
| `DistanceHistory.KeepLast` | ARKitExample/ARVirtualObjectManager.swift:280 | the result is the last n elements of s (all of s when shorter), in order |
| `DistanceHistory.KeepLastAppend` | ARKitExample/ARVirtualObjectManager.swift:279-280 | appending to a bounded history keeps every old sample while there is room, and otherwise evicts exactly the oldest |
| `DistanceHistory.Average` | ARKitExample/ARVirtualObjectManager.swift:283 | the mean exists exactly for a non-empty history, and times the count it equals the sum |
| `DistanceHistory.SumWithin` | ARKitExample/ARVirtualObjectManager.swift:283 | the sum of samples in [lo, hi] lies between count·lo and count·hi |
| `DistanceHistory.AverageWithin` | ARKitExample/ARVirtualObjectManager.swift:283 | the mean of samples in [lo, hi] lies in [lo, hi] |
| `DistanceHistory.AveragePositive` | ARKitExample/ARVirtualObjectManager.swift:277-283 | a history of non-negative samples ending with a positive one has a positive mean |
| `HitTestCascade.WorldPositionFromScreenPosition` | ARKitExample/ARVirtualObjectManager.swift:165-232 | an existing-plane hit wins with its anchor and hitAPlane; only that stage reports an anchor; the infinite plane through objectPos (or the origin) answers when its stage runs and hits; hitAPlane holds iff stage 1 or stage 3 hit; feature answers carry no anchor; no position iff every cast is empty |
| `HitTestCascade.CascadeIsFirstAnsweringStage` | ARKitExample/ARVirtualObjectManager.swift:169-231 | the cascade equals taking the first answering stage of the priority list plane, infinite plane, high-quality features, unfiltered features |
| `HitTestCascade.InfinitePlaneIgnoredWhenSkipped` | ARKitExample/ARVirtualObjectManager.swift:202-219 | when stage 3 does not run, the infinite-plane cast has no influence, and without a plane hit the high-quality feature hit is returned unconfirmed |
| `HitTestCascade.MissingObjectPositionMeansOrigin` | ARKitExample/ARVirtualObjectManager.swift:204 | a missing object position behaves exactly like the origin |
| `VirtualObjectManager.ResetVirtualObject` | ARKitExample/ARVirtualObjectManager.swift:100-110 | the object is gone and the persisted selection is -1; nothing else changes |
| `VirtualObjectManager.SetNewVirtualObjectPosition` | ARKitExample/ARVirtualObjectManager.swift:236-255 | without object or frame nothing changes; otherwise the history is emptied, the object is attached, and it lies min(d, 10 m) from the camera towards the target (exactly at the target within 10 m); nothing else changes |
| `VirtualObjectManager.RecordDistance` | ARKitExample/ARVirtualObjectManager.swift:279-280 | the history grows by one up to 10, ends with the new sample, and is preceded by the newest old samples |
| `VirtualObjectManager.RecordDistanceWithin` | ARKitExample/ARVirtualObjectManager.swift:277-280 | recording a distance in [0, 10 m] into a history of such distances keeps every sample in [0, 10 m] |
| `VirtualObjectManager.AppliedOffset` | ARKitExample/ARVirtualObjectManager.swift:282-291 | unfiltered, the clamped vector is applied; filtered, over a history of clamped distances that ends with a positive sample, the mean is positive and the applied vector has the mean as its length and the clamped vector's direction; a zero vector stays zero |
| `VirtualObjectManager.UpdateVirtualObjectPosition` | ARKitExample/ARVirtualObjectManager.swift:257-280 | without object or frame nothing changes; otherwise the history grows by one up to 10, ends with the clamped distance, evicts the oldest on overflow, and only the object's position changes |
| `VirtualObjectManager.UpdateUnfilteredPlacement` | ARKitExample/ARVirtualObjectManager.swift:289-291 | unfiltered, the object lies min(d, 10 m) from the camera towards the target, exactly at it within 10 m |
| `VirtualObjectManager.UpdateFilteredPlacement` | ARKitExample/ARVirtualObjectManager.swift:282-288 | with a well-formed history, filtered, the updated history has a positive mean and the object lies at that mean distance from the camera towards the target; a target at the camera puts the object at the camera |
| `VirtualObjectManager.MoveVirtualObjectToPosition` | ARKitExample/ARVirtualObjectManager.swift:147-163 | with no position nothing moves, and the selection is reset only when there is no object; otherwise it is the immediate or the incremental placement as asked |
| `VirtualObjectManager.ChooseObject` | ARKitExample/ARVirtualObjectManager.swift:81-85 | while loading, nothing happens; otherwise the menu is shown and only the "place an object" prompt is withdrawn |
| `VirtualObjectManager.LoadVirtualObject` | ARKitExample/ARVirtualObjectManager.swift:40-56 | the chosen model becomes the detached active object, loading is flagged, the selection is reset, and the history and the infinite-plane drag flag are kept |
| `VirtualObjectManager.FinishLoading` | ARKitExample/ARVirtualObjectManager.swift:60-76 | loading is cleared; with an object and a frame, the same model is attached min(d, 10 m) from the camera towards the focus square's last position (or the origin), exactly there within 10 m, with an empty history; the selection and the drag flag are kept |
| `VirtualObjectManager.CheckIfObjectShouldMoveOntoPlane` | ARKitExample/ARVirtualObjectManager.swift:294-329 | when the object's local height is non-zero, strictly within ±3 cm, and it lies over the extent widened by 10% on every side, only its world height changes, to the anchor's; otherwise nothing changes |
| `PlacementProperties.HistoryIsLatestSamples` | ARKitExample/ARVirtualObjectManager.swift:257-280 | after any number of updates the history is exactly the last 10 of the old history followed by the clamped distances, oldest first |
| `PlacementProperties.KeepLastOfLongSuffix` | ARKitExample/ARVirtualObjectManager.swift:280 | once 10 or more samples follow, nothing older survives |
| `PlacementProperties.UpdateKeepsHistoryValid` | ARKitExample/ARVirtualObjectManager.swift:277-280 | the history stays at most 10 long with every sample in [0, 10 m] |
| `PlacementProperties.SetNewKeepsHistoryValid` | ARKitExample/ARVirtualObjectManager.swift:242 | an immediate placement keeps the history well formed |
| `PlacementProperties.MoveKeepsHistoryValid` | ARKitExample/ARVirtualObjectManager.swift:147-163 | every move keeps the history well formed |
| `PlacementProperties.FinishLoadingKeepsHistoryValid` | ARKitExample/ARVirtualObjectManager.swift:60-66 | finishing a load keeps the history well formed |
| `PlacementProperties.SnapKeepsHistoryValid` | ARKitExample/ARVirtualObjectManager.swift:294-329 | the snap leaves the history alone |
| `PlacementProperties.FilteredPlacementWithinMaxDistance` | ARKitExample/ARVirtualObjectManager.swift:269-288 | smoothing never puts the object more than 10 m from the camera |
| `PlacementProperties.FilterHasNoEffectOnFreshHistory` | ARKitExample/ARVirtualObjectManager.swift:277-288 | with an empty history, a smoothed update equals an unsmoothed one |
| `PlacementProperties.FirstMoveAfterPlacementIsUnfiltered` | ARKitExample/ARVirtualObjectManager.swift:242-288 | the first smoothed move after an immediate placement equals the unsmoothed move |
| `PlacementProperties.SnapExamples` | ARKitExample/ARVirtualObjectManager.swift:302-328 | 2 cm above a 1 m × 1 m plane the object drops onto it; 10 cm above, or beyond the widened edge, it stays |
| `PlacementProperties.SnapIsIdempotent` | ARKitExample/ARVirtualObjectManager.swift:300-328 | with a translating anchor node, a dropped object is not moved again |
| `SessionManager.ClearFallbackTimer` | ARKitExample/ARSessionManager.swift:90-93 | the held timer, if any, is no longer live and no handle is held; nothing else changes |
| `SessionManager.SetUse3DOFTracking` | ARKitExample/ARSessionManager.swift:22-30 | on installs a new orientation-only configuration; off keeps the current kind and plane detection; light estimation follows the setting, and exactly one run with that configuration is appended |
| `SessionManager.AddPlane` | ARKitExample/ARSessionManager.swift:52-67 | the plane is filed under its anchor, the "find a surface" prompt is withdrawn, and the 7.5 s placement prompt is scheduled iff there is no object; every other scheduled message keeps its delay |
| `SessionManager.UpdatePlane` | ARKitExample/ARSessionManager.swift:69-73 | an unknown anchor changes nothing; a known one refreshes only its own entry |
| `SessionManager.RemovePlane` | ARKitExample/ARSessionManager.swift:75-79 | the anchor is absent afterwards, other entries are unchanged, and removing an absent anchor is a no-op |
| `SessionManager.RestartPlaneDetection` | ARKitExample/ARSessionManager.swift:81-98 | world tracking gets horizontal plane detection and a run with reset and remove; orientation tracking is left alone; the timer is always cleared; the surface prompt is due in 7.5 s |
| `SessionManager.CameraDidChangeTrackingState` | ARKitExample/ARSessionManager.swift:102-126 | not available escalates in 5 s; limited with fallback arms exactly one new live timer and holds it without invalidating the old; limited without fallback escalates in 10 s; normal withdraws the escalation and clears the timer only with the fallback enabled |
| `SessionManager.FallbackTimerFired` | ARKitExample/ARSessionManager.swift:111-115 | a timer that is not live does nothing; a live one fires once, switches to 3DOF with a new orientation-only configuration without plane detection and one new run, and clears whatever handle is held; planes, messages, the object, restart state and the timer counter are unchanged |
| `SessionManager.DisplayErrorMessage` | ARKitExample/ARSessionManager.swift:210-224 | the image is blurred and the alert offers a reset iff a restart is allowed |
| `SessionManager.DidFailWithError` | ARKitExample/ARSessionManager.swift:128-148 | a non-ARError is ignored; an ARError is shown blurred, recoverable and with a reset iff its code is worldTrackingFailed; the scheduled messages and everything outside the text are unchanged |
| `SessionManager.SessionWasInterrupted` | ARKitExample/ARSessionManager.swift:150-153 | the image is blurred and the interruption alert, without a reset, is shown; the scheduled messages and everything else are unchanged |
| `SessionManager.ToggleAmbientLightEstimation` | ARKitExample/ARSessionManager.swift:164-179 | afterwards the flag equals the request; the session is re-run exactly when the flag differed, and nothing changes otherwise |
| `SessionManager.RestartExperience` | ARKitExample/ARSessionManager.swift:181-206 | refused while disabled or loading; otherwise disables restart, switches 3DOF off, keeps the configuration kind, invalidates only the held timer (timers orphaned earlier stay live), resets the object, and leaves exactly the focus-square and surface prompts scheduled with no alert |
| `SessionManager.RestartCooldownElapsed` | ARKitExample/ARSessionManager.swift:201-204 | a pending cool-down re-enables restart |
| `SessionManager.SessionInterruptionEnded` | ARKitExample/ARSessionManager.swift:155-160 | the image is un-blurred and the current configuration is re-run with reset and remove before the restart |
| `SessionManager.ResetActionTapped` | ARKitExample/ARSessionManager.swift:214-220 | only an alert offering a reset can be tapped; tapping it dismisses the alert, un-blurs, and restarts |
| `SessionManager.ApplySettings` | ARKitExample/ViewController.swift:284-292 | light estimation, infinite-plane dragging, 3DOF tracking and the fallback switch take the chosen values; the observer's run with the final configuration is appended after the old runs; with 3DOF off the configuration kind and plane detection are kept; timers, planes, messages and restart state are untouched |
| `SessionManager.Launched` | ARKitExample/ViewController.swift:20-31 | after the view loads, only the 5 s focus-square prompt is scheduled, the saved settings are in force, the last run is the observer's run of the configuration (orientation-only exactly when 3DOF is saved, never with plane detection), no run resets, no timer is held, and there is no object |
| `SessionProperties.InitialIsValid` | ARKitExample/ARSessionManager.swift:20-31 | the manager as constructed, before the view has loaded, meets the invariant |
| `SessionProperties.LaunchedIsValid` | ARKitExample/ViewController.swift:20-31 | the manager once the view has loaded meets the invariant |
| `SessionProperties.ObjectEventKeepsHistoryValid` | ARKitExample/ARVirtualObjectManager.swift:40-163 | object events keep the distance history well formed |
| `SessionProperties.ObjectEventKeepsValid` | ARKitExample/ARVirtualObjectManager.swift:40-163 | object events keep the invariant |
| `SessionProperties.SessionEventKeepsValid` | ARKitExample/ARSessionManager.swift:52-224 | session events keep the invariant |
| `SessionProperties.AppearedKeepsValid` | ARKitExample/ViewController.swift:33-41 | starting the session when the view appears keeps the invariant |
| `SessionProperties.AddPlaneKeepsValid` | ARKitExample/ARSessionManager.swift:52-67 | adding a plane keeps every plane filed under its own anchor |
| `SessionProperties.UpdatePlaneKeepsValid` | ARKitExample/ARSessionManager.swift:69-73 | updating a plane keeps the invariant |
| `SessionProperties.RemovePlaneKeepsValid` | ARKitExample/ARSessionManager.swift:75-79 | removing a plane keeps the invariant |
| `SessionProperties.TrackingKeepsValid` | ARKitExample/ARSessionManager.swift:102-126 | a tracking change keeps the held timer live and every live timer named |
| `SessionProperties.FallbackKeepsValid` | ARKitExample/ARSessionManager.swift:111-115 | a firing keeps 3DOF tied to an orientation-only configuration |
| `SessionProperties.ErrorKeepsValid` | ARKitExample/ARSessionManager.swift:128-148 | an error keeps the invariant |
| `SessionProperties.InterruptionKeepsValid` | ARKitExample/ARSessionManager.swift:150-153 | an interruption keeps the invariant |
| `SessionProperties.RestartKeepsValid` | ARKitExample/ARSessionManager.swift:181-206 | a restart keeps the invariant |
| `SessionProperties.InterruptionEndedKeepsValid` | ARKitExample/ARSessionManager.swift:155-160 | the end of an interruption keeps the invariant |
| `SessionProperties.ResetKeepsValid` | ARKitExample/ARSessionManager.swift:214-220 | the reset action keeps the invariant |
| `SessionProperties.CooldownKeepsValid` | ARKitExample/ARSessionManager.swift:201-204 | the cool-down keeps the invariant |
| `SessionProperties.SettingsKeepValid` | ARKitExample/ViewController.swift:284-292 | applying settings keeps the invariant |
| `SessionProperties.StepPreservesValid` | ARKitExample/ARSessionManager.swift:52-224 | every event keeps the invariant: held timer live, live timers named, planes under their anchors, 3DOF only with an orientation-only configuration without plane detection, well-formed history |
| `SessionProperties.ReplayPreservesValid` | ARKitExample/ARSessionManager.swift:52-224 | any sequence of events from a valid state ends in a valid state |
| `SessionProperties.ReachableIsValid` | ARKitExample/ARSessionManager.swift:20-31 | every state reachable by events from the manager as constructed is valid |
| `SessionProperties.ReachableFromLaunchIsValid` | ARKitExample/ViewController.swift:20-41 | every state reachable by events once the view has loaded is valid |
| `SessionProperties.AppearingStartsPlaneDetection` | ARKitExample/ViewController.swift:33-41 | with 3DOF tracking off in the settings, the view appearing after it has loaded adds one from-scratch run of world tracking with horizontal plane detection, schedules the 7.5 s surface prompt next to the 5 s focus-square prompt, and holds no timer |
| `SessionProperties.AppearingWith3DOFDetectsNoPlanes` | ARKitExample/ViewController.swift:33-41 | with 3DOF tracking on in the settings, the view appearing leaves the orientation-only configuration without plane detection and adds no run, and no run so far resets tracking or removes anchors |
| `SessionProperties.LimitedTrackingFallsBackTo3DOF` | ARKitExample/ARSessionManager.swift:108-115 | limited tracking with the fallback arms a timer whose firing switches to 3DOF and leaves the set of live timers as it was before (timers orphaned earlier stay live) |
| `SessionProperties.RecoveryCancelsFallback` | ARKitExample/ARSessionManager.swift:108-124 | limited then normal adds no live timer (the live set is as before), leaves 3DOF and the configuration unchanged, and the cancelled timer never fires |
| `SessionProperties.OverwrittenTimerOutlivesRecovery` | ARKitExample/ARSessionManager.swift:108-124 | limited, limited, normal leaves the first timer live, and its firing switches to 3DOF although tracking is normal |
| `SessionProperties.OverwrittenTimerCancelsNewer` | ARKitExample/ARSessionManager.swift:111-115 | the overwritten timer's firing invalidates the newer one, so the switch happens once |
| `SessionProperties.OrphanedTimerSurvivesRestart` | ARKitExample/ARSessionManager.swift:108-197 | after limited, limited, restart, the first timer is still live, and its firing switches the restarted session to 3DOF without plane detection |
| `SessionProperties.FallbackSurvivesRestart` | ARKitExample/ARSessionManager.swift:22-30 | once the configuration is orientation-only, as after the 3DOF fallback, every restart keeps it, without plane detection or a run from scratch |
| `SessionProperties.WorldTrackingRestartDetectsPlanes` | ARKitExample/ARSessionManager.swift:181-197 | from world tracking, a restart runs the observer's configuration and then horizontal plane detection with reset and remove |
| `SessionProperties.RestartIsRefusedUntilCooldown` | ARKitExample/ARSessionManager.swift:183-204 | a second restart before the cool-down does nothing, and the cool-down allows it again |
| `SessionProperties.RestartIsRefusedWhileLoading` | ARKitExample/ARSessionManager.swift:183-185 | while an object loads, both restart and choosing an object do nothing |
| `SessionProperties.ToggleIsIdempotent` | ARKitExample/ARSessionManager.swift:164-179 | asking twice for the same light estimation changes nothing the second time and runs at most once |
| `SessionProperties.AddThenRemovePlane` | ARKitExample/ARSessionManager.swift:52-79 | adding then removing a plane leaves the other planes as they were |
| `SessionProperties.ErrorExamples` | ARKitExample/ARSessionManager.swift:140-147 | a world-tracking failure offers a reset; a sensor failure does not, and has nothing to tap |
| `SessionProperties.ResetOfferedExactlyWhenRecoverable` | ARKitExample/ARSessionManager.swift:128-148 | for every ARError, tapping the alert's reset does something exactly when the error is recoverable |

## Left out

- Lengths: every vector length is an input constrained by `IsLengthOf`, because Dafny's reals have no square root. Floating-point rounding is not modelled; all arithmetic is on exact reals.
- `Utilities.swift` is not part of this model. The model gives its helpers their evident meaning:
  - `setMaximumLength` shortens a longer vector to the limit along its direction;
  - `setLength` normalizes and then scales, and the zero vector is left unchanged;
  - `keepLast(n)` keeps the last n elements;
  - `average` is sum over count, and nothing for an empty array.
- Ray casting, `convertPosition`, `node(for:)` and the camera transform belong to ARKit and SceneKit. They are inputs to the model.
- The `Plane` node's geometry and debug visuals are not modelled: a plane is reduced to its anchor.
- All text that is only displayed is not modelled. That covers `showMessage`, `showDebugMessage`, `showTrackingQualityInfo`, `displayVirtualObjectTransform`, the debug string formatting and the error message wording. Only scheduled message types, the alert and the blur are kept.
- Button images, spinners, the popover, `enableEnvironmentMap` and the buttons' `isEnabled` mirroring of `isLoadingObject` are user-interface effects only.
- `SCNTransaction` animation is not modelled: the snap's height change is applied at once.
- Asynchronous work is modelled as separate, atomic events:
  - the model load (`ObjectChosen`, then `ObjectLoaded`);
  - the body of `restartExperience`, which runs right after its guard;
  - the 5 s cool-down (`CooldownElapsed`, counted by `pendingReenables`);
  - timer firings.

  Wall-clock time is not modelled. Delays are recorded as numbers only.
- Member references that these files make to other classes are modelled as intended, not as wired:
  - `showDebugVisuals` only affects display;
  - `restartExperience(self)` is the manager's own `restartExperience`.
- `ApplySettings` models only the settings that reach the two managers. Debug mode, the hit-test visualisation and occlusion are left out.
- `VirtualObjectManager.UpdateVirtualObjectPosition`: its own contract speaks of the history and of which fields change. The geometry of the new position is stated in `UpdateUnfilteredPlacement` and `UpdateFilteredPlacement`.
- `PlacementProperties.FilteredPlacementWithinMaxDistance`: covers a target away from the camera. A target at the camera puts the object at the camera, as `UpdateFilteredPlacement` states.
- `PlacementProperties.KeepLastOfLongSuffix`: the eviction of everything older than the last 10 samples is stated about the history's sequence. Together with `HistoryIsLatestSamples` it covers the updates.
- `SessionManager.SessionInterruptionEnded`: when the restart proceeds, the contract states the un-blur and the run from scratch. The restart's own effects are those of `RestartExperience`.
- `SessionManager.ResetActionTapped`: when the restart proceeds, the contract states the dismissed alert, the un-blur, the cleared timer and the unloaded object. The rest is `RestartExperience`'s contract.
- `SessionManager.ResetActionTapped`: tapping an alert action dismisses the alert, which UIKit does, not the source.
- `VirtualObjectManager.LoadVirtualObject`: the catalogue of available models (`VirtualObject.availableObjects`) is not part of this model, so any index is accepted and names a model.

=== FILE: feedback.dfy ===
/**
 * The user-facing message sink both managers share (the `textManager`
 * singleton).  Only what the core's decisions depend on is kept: which
 * message types are scheduled and after how many seconds, the alert on
 * screen, and whether the camera image is blurred.  Message wording is not
 * modelled.
 */
module TextFeedback {
  import opened Wrappers

  /** The `messageType` tags the core schedules and cancels by. */
  datatype MessageType =
    | PlaneEstimation
    | ContentPlacement
    | FocusSquare
    | TrackingStateEscalation

  /** What an alert is about. */
  datatype AlertKind =
    | SessionInterrupted
    | SessionFailed(recoverable: bool)

  /** An alert and whether it carries a "Reset" action. */
  datatype Alert = Alert(kind: AlertKind, offersReset: bool)

  datatype TextManager = TextManager(
    scheduled: map<MessageType, real>,
    alert: Option<Alert>,
    blurred: bool)

  const Idle := TextManager(map[], None, false)

  /** Schedule a message of type `t` after `seconds`, replacing an earlier one of that type. */
  function Schedule(tm: TextManager, t: MessageType, seconds: real): TextManager {
    tm.(scheduled := tm.scheduled[t := seconds])
  }

  function Cancel(tm: TextManager, t: MessageType): TextManager {
    tm.(scheduled := tm.scheduled - {t})
  }

  function CancelAll(tm: TextManager): TextManager {
    tm.(scheduled := map[])
  }

  function ShowAlert(tm: TextManager, a: Alert): TextManager {
    tm.(alert := Some(a))
  }

  function DismissAlert(tm: TextManager): TextManager {
    tm.(alert := None)
  }

  function Blur(tm: TextManager): TextManager {
    tm.(blurred := true)
  }

  function Unblur(tm: TextManager): TextManager {
    tm.(blurred := false)
  }
}

=== FILE: history.dfy ===
/**
 * The bounded list of recent camera-to-object distances and the array
 * helpers it is maintained with (`keepLast`, `average`).
 */
module DistanceHistory {
  import opened Wrappers

  /** Number of recent distances the placement filter remembers. */
  const Capacity: nat := 10

  /**
   * `keepLast(n)`: drop the oldest elements until at most `n` remain.
   */
  function KeepLast<T>(s: seq<T>, n: nat): (r: seq<T>)
    ensures |r| == if |s| <= n then |s| else n
    ensures forall i :: 0 <= i < |r| ==> r[i] == s[|s| - |r| + i]
  {
    if |s| > n then s[|s| - n..] else s
  }

  /**
   * Appending one sample to a history that is already within bounds keeps
   * every old sample while there is room, and otherwise evicts exactly the
   * oldest one.
   */
  lemma KeepLastAppend<T>(s: seq<T>, x: T, n: nat)
    requires 0 < n && |s| <= n
    ensures |s| < n ==> KeepLast(s + [x], n) == s + [x]
    ensures |s| == n ==> KeepLast(s + [x], n) == s[1..] + [x]
  {
    if |s| == n {
      assert (s + [x])[1..] == s[1..] + [x];
    }
  }

  /** `reduce(0, +)`, summing from the oldest sample. */
  function Sum(s: seq<real>): real
  {
    if |s| == 0 then 0.0 else Sum(s[..|s| - 1]) + s[|s| - 1]
  }

  /** `average`: the arithmetic mean, or nothing for an empty array. */
  function Average(s: seq<real>): (r: Option<real>)
    ensures r.Some? <==> |s| > 0
    ensures r.Some? ==> r.value * (|s| as real) == Sum(s)
  {
    if |s| == 0 then None else Some(Sum(s) / (|s| as real))
  }

  predicate AllWithin(s: seq<real>, lo: real, hi: real) {
    forall i :: 0 <= i < |s| ==> lo <= s[i] <= hi
  }

  lemma {:induction false} SumWithin(s: seq<real>, lo: real, hi: real)
    requires AllWithin(s, lo, hi)
    ensures (|s| as real) * lo <= Sum(s) <= (|s| as real) * hi
  {
    if |s| > 0 {
      var init := s[..|s| - 1];
      assert AllWithin(init, lo, hi) by {
        forall i | 0 <= i < |init| ensures lo <= init[i] <= hi {
          assert init[i] == s[i];
        }
      }
      SumWithin(init, lo, hi);
      assert (|s| as real) * lo == (|init| as real) * lo + lo;
      assert (|s| as real) * hi == (|init| as real) * hi + hi;
    }
  }

  /** The mean of samples that all lie in `[lo, hi]` lies in `[lo, hi]` too. */
  lemma AverageWithin(s: seq<real>, lo: real, hi: real)
    requires |s| > 0 && AllWithin(s, lo, hi)
    ensures lo <= Average(s).value <= hi
  {
    SumWithin(s, lo, hi);
    var n := |s| as real;
    var m := Average(s).value;
    assert m * n == Sum(s);
  }

  /**
   * A history of non-negative samples whose newest sample is positive has
   * a positive mean.
   */
  lemma AveragePositive(s: seq<real>, hi: real)
    requires |s| > 0 && AllWithin(s, 0.0, hi) && s[|s| - 1] > 0.0
    ensures Average(s).value > 0.0
  {
    var init := s[..|s| - 1];
    assert AllWithin(init, 0.0, hi) by {
      forall i | 0 <= i < |init| ensures 0.0 <= init[i] <= hi {
        assert init[i] == s[i];
      }
    }
    SumWithin(init, 0.0, hi);
    assert Sum(s) > 0.0;
  }

  /** A history of `1, 2, 3` metres averages to 2 metres. */
  lemma AverageOfOneTwoThree()
    ensures Average([1.0, 2.0, 3.0]) == Some(2.0)
  {
    assert [1.0, 2.0, 3.0][..2] == [1.0, 2.0];
    assert [1.0, 2.0][..1] == [1.0];
    assert [1.0][..0] == [];
  }
}

=== FILE: hit_test.dfy ===
/**
 * `worldPositionFromScreenPosition`: turning a screen point into a world
 * position by a fixed, ordered fallback over four ray casts.  The ray casts
 * themselves belong to the rendering framework; their answers for the
 * screen point in question are the input here.
 */
module HitTestCascade {
  import opened Wrappers
  import opened Vectors
  import opened Scene

  /**
   * A feature-point ray cast: restricted to a cone around the ray and a
   * distance window, or the unrestricted closest-feature cast.
   */
  datatype FeatureQuery =
    | Cone(openingAngleDegrees: real, minDistance: real, maxDistance: real)
    | Unfiltered

  /** The high-quality feature cast: an 18 degree cone between 0.2 m and 2.0 m. */
  const HighQualityFeatureQuery := Cone(18.0, 0.2, 2.0)

  /** First result of a ray cast against existing planes, within their extent. */
  datatype PlaneHit = PlaneHit(position: Vec3, anchor: Option<PlaneAnchor>)

  /**
   * The answers of the ray casts for one screen point: the first
   * existing-plane hit, the first feature hit for each kind of feature
   * query, and the hit on the infinite horizontal plane through a given
   * world point.
   */
  datatype RayCasts = RayCasts(
    existingPlaneUsingExtent: Option<PlaneHit>,
    features: FeatureQuery -> Option<Vec3>,
    infiniteHorizontalPlane: Vec3 -> Option<Vec3>)

  /** The cascade's answer `(position, planeAnchor, hitAPlane)`. */
  datatype WorldPosition = WorldPosition(position: Option<Vec3>, planeAnchor: Option<PlaneAnchor>, hitAPlane: bool)

  const NoPosition := WorldPosition(None, None, false)

  /** The horizontal plane is anchored at the previous object position, or the origin. */
  function PointOnPlane(objectPos: Option<Vec3>): Vec3 {
    objectPos.GetOr(Zero)
  }

  /** Stage 3 is attempted when asked for and enabled, or when stage 2 found nothing. */
  predicate InfinitePlaneStageRuns(casts: RayCasts, infinitePlane: bool, dragOnInfinitePlanesEnabled: bool) {
    (infinitePlane && dragOnInfinitePlanesEnabled) || casts.features(HighQualityFeatureQuery).None?
  }

  function WorldPositionFromScreenPosition(
    casts: RayCasts, objectPos: Option<Vec3>, infinitePlane: bool, dragOnInfinitePlanesEnabled: bool): (r: WorldPosition)
    // Stage 1 wins whenever it has a hit, whatever the other casts say.
    ensures casts.existingPlaneUsingExtent.Some? ==>
      r == WorldPosition(Some(casts.existingPlaneUsingExtent.value.position), casts.existingPlaneUsingExtent.value.anchor, true)
    // Only stage 1 ever reports an anchor.
    ensures r.planeAnchor.Some? ==>
      casts.existingPlaneUsingExtent.Some? && r.planeAnchor == casts.existingPlaneUsingExtent.value.anchor
    // The infinite plane, through the previous object position or the origin, answers exactly when stage 3 runs.
    ensures (&& casts.existingPlaneUsingExtent.None?
             && InfinitePlaneStageRuns(casts, infinitePlane, dragOnInfinitePlanesEnabled)
             && casts.infiniteHorizontalPlane(PointOnPlane(objectPos)).Some?) ==>
      r == WorldPosition(casts.infiniteHorizontalPlane(PointOnPlane(objectPos)), None, true)
    // A surface is confirmed only by stage 1 or stage 3.
    ensures r.hitAPlane <==>
      casts.existingPlaneUsingExtent.Some?
      || (InfinitePlaneStageRuns(casts, infinitePlane, dragOnInfinitePlanesEnabled)
          && casts.infiniteHorizontalPlane(PointOnPlane(objectPos)).Some?)
    // Feature-point answers come back unconfirmed and without an anchor.
    ensures r.position.Some? && !r.hitAPlane ==>
      r.planeAnchor.None?
      && (r.position == casts.features(HighQualityFeatureQuery) || r.position == casts.features(Unfiltered))
    // Placement fails only when every stage came back empty.
    ensures r.position.None? <==>
      casts.existingPlaneUsingExtent.None?
      && casts.features(HighQualityFeatureQuery).None?
      && casts.infiniteHorizontalPlane(PointOnPlane(objectPos)).None?
      && casts.features(Unfiltered).None?
    ensures r.position.None? ==> r == NoPosition
  {
    // 1. Existing planes, within their extent: the best possible outcome.
    if casts.existingPlaneUsingExtent.Some? then
      var hit := casts.existingPlaneUsingExtent.value;
      WorldPosition(Some(hit.position), hit.anchor, true)
    else
      // 2. High-quality feature points: remembered, not yet returned.
      var featureHitTestPosition := casts.features(HighQualityFeatureQuery);
      var highQualityFeatureHitTestResult := featureHitTestPosition.Some?;
      // 3. The infinite horizontal plane, if desired or necessary.
      var pointOnInfinitePlane :=
        if (infinitePlane && dragOnInfinitePlanesEnabled) || !highQualityFeatureHitTestResult
        then casts.infiniteHorizontalPlane(PointOnPlane(objectPos))
        else None;
      if pointOnInfinitePlane.Some? then
        WorldPosition(pointOnInfinitePlane, None, true)
      // 4. The high-quality feature hit.
      else if highQualityFeatureHitTestResult then
        WorldPosition(featureHitTestPosition, None, false)
      // 5. Last resort: the unfiltered feature hit, if any.
      else
        var unfiltered := casts.features(Unfiltered);
        if unfiltered.Some? then WorldPosition(unfiltered, None, false) else NoPosition
  }

  /*
   * An independent reading of the cascade: list what each stage would
   * return, in priority order, and take the first stage that returns.
   */

  function Stages(casts: RayCasts, objectPos: Option<Vec3>, infinitePlane: bool, drag: bool): seq<Option<WorldPosition>> {
    var planeStage :=
      if casts.existingPlaneUsingExtent.Some?
      then Some(WorldPosition(Some(casts.existingPlaneUsingExtent.value.position), casts.existingPlaneUsingExtent.value.anchor, true))
      else None;
    var infiniteStage :=
      if InfinitePlaneStageRuns(casts, infinitePlane, drag) && casts.infiniteHorizontalPlane(PointOnPlane(objectPos)).Some?
      then Some(WorldPosition(casts.infiniteHorizontalPlane(PointOnPlane(objectPos)), None, true))
      else None;
    var featureStage :=
      if casts.features(HighQualityFeatureQuery).Some?
      then Some(WorldPosition(casts.features(HighQualityFeatureQuery), None, false))
      else None;
    var lastResort :=
      if casts.features(Unfiltered).Some?
      then Some(WorldPosition(casts.features(Unfiltered), None, false))
      else None;
    [planeStage, infiniteStage, featureStage, lastResort]
  }

  /** The answer of the first stage that returns, or no position at all. */
  function FirstAnswer(stages: seq<Option<WorldPosition>>): WorldPosition {
    if |stages| == 0 then NoPosition
    else if stages[0].Some? then stages[0].value
    else FirstAnswer(stages[1..])
  }

  /** The cascade returns the answer of the highest-priority stage that has one. */
  lemma CascadeIsFirstAnsweringStage(casts: RayCasts, objectPos: Option<Vec3>, infinitePlane: bool, drag: bool)
    ensures WorldPositionFromScreenPosition(casts, objectPos, infinitePlane, drag)
         == FirstAnswer(Stages(casts, objectPos, infinitePlane, drag))
  {
    var s := Stages(casts, objectPos, infinitePlane, drag);
    var s1, s2, s3 := s[1..], s[2..], s[3..];
    assert s1[1..] == s2 && s2[1..] == s3 && s3[1..] == [];
    assert FirstAnswer(s3) == (if s[3].Some? then s[3].value else NoPosition);
    assert FirstAnswer(s2) == (if s[2].Some? then s[2].value else FirstAnswer(s3));
    assert FirstAnswer(s1) == (if s[1].Some? then s[1].value else FirstAnswer(s2));
  }

  /**
   * When stage 3 does not run (a high-quality feature hit exists and
   * infinite-plane dragging was not both requested and enabled), the
   * infinite-plane cast has no influence on the answer.
   */
  lemma InfinitePlaneIgnoredWhenSkipped(
    casts: RayCasts, other: Vec3 -> Option<Vec3>, objectPos: Option<Vec3>, infinitePlane: bool, drag: bool)
    requires !InfinitePlaneStageRuns(casts, infinitePlane, drag)
    ensures WorldPositionFromScreenPosition(casts, objectPos, infinitePlane, drag)
         == WorldPositionFromScreenPosition(casts.(infiniteHorizontalPlane := other), objectPos, infinitePlane, drag)
    ensures casts.existingPlaneUsingExtent.None? ==>
      WorldPositionFromScreenPosition(casts, objectPos, infinitePlane, drag)
        == WorldPosition(casts.features(HighQualityFeatureQuery), None, false)
  {
  }

  /**
   * With no existing-plane hit, the answer depends on the previous object
   * position only through the point the infinite plane passes through:
   * an absent position behaves exactly like the origin.
   */
  lemma MissingObjectPositionMeansOrigin(casts: RayCasts, infinitePlane: bool, drag: bool)
    ensures WorldPositionFromScreenPosition(casts, None, infinitePlane, drag)
         == WorldPositionFromScreenPosition(casts, Some(Zero), infinitePlane, drag)
  {
  }
}

=== FILE: object_manager.dfy ===
/**
 * `ARVirtualObjectManager` apart from its ray-cast cascade: the single
 * active virtual object, its loading guard, immediate and smoothed
 * placement relative to the camera, and the snap onto a newly refined
 * plane.
 */
module VirtualObjectManager {
  import opened Wrappers
  import opened Vectors
  import opened Scene
  import opened DistanceHistory
  import opened TextFeedback

  /** Objects are never placed more than 10 m from the camera. */
  const MaxDistance: real := 10.0

  /** The plane's extent is widened by 10% on each side before the snap check. */
  const SnapTolerance: real := 0.1

  /** An object closer than 3 cm above or below a plane is dropped onto it. */
  const VerticalAllowance: real := 0.03

  /** `UserDefaults` value of `.selectedObjectID` when no row is selected. */
  const NoSelection: int := -1

  /**
   * The active object: which model it is, its position, and whether it is
   * attached to the scene graph (`parent != nil`).
   */
  datatype VirtualObject = VirtualObject(modelIndex: nat, position: Vec3, hasParent: bool)

  datatype ObjectManager = ObjectManager(
    virtualObject: Option<VirtualObject>,
    isLoadingObject: bool,
    recentVirtualObjectDistances: seq<real>,
    dragOnInfinitePlanesEnabled: bool,
    selectedObjectId: int)

  const Initial := ObjectManager(None, false, [], false, NoSelection)

  /**
   * `distance` is the length of the camera-to-`pos` vector, whenever there
   * is a current frame to measure from.
   */
  predicate Measured(frame: Option<Frame>, pos: Vec3, distance: real) {
    frame.Some? ==> IsLengthOf(distance, Sub(pos, frame.value.cameraPosition))
  }

  /** The distance history is bounded and holds only clamped distances. */
  predicate HistoryValid(m: ObjectManager) {
    |m.recentVirtualObjectDistances| <= Capacity
    && AllWithin(m.recentVirtualObjectDistances, 0.0, MaxDistance)
  }

  /** Unload and detach the object and clear the persisted selection. */
  function ResetVirtualObject(m: ObjectManager): (r: ObjectManager)
    ensures r.virtualObject.None? && r.selectedObjectId == NoSelection
    ensures r.(virtualObject := m.virtualObject, selectedObjectId := m.selectedObjectId) == m
  {
    m.(virtualObject := None, selectedObjectId := NoSelection)
  }

  /**
   * `setNewVirtualObjectPosition`: place the object immediately, at most
   * 10 m from the camera along the camera-to-`pos` direction, forget the
   * distance history and attach the object if it is not attached yet.
   */
  function SetNewVirtualObjectPosition(m: ObjectManager, frame: Option<Frame>, pos: Vec3, distance: real): (r: ObjectManager)
    requires Measured(frame, pos, distance)
    ensures m.virtualObject.None? || frame.None? ==> r == m
    ensures m.virtualObject.Some? && frame.Some? ==>
      var camera := frame.value.cameraPosition;
      && r.recentVirtualObjectDistances == []
      && r.virtualObject.Some?
      && r.virtualObject.value.modelIndex == m.virtualObject.value.modelIndex
      && r.virtualObject.value.hasParent
      && IsLengthOf(Min(distance, MaxDistance), Sub(r.virtualObject.value.position, camera))
      && SameDirection(Sub(r.virtualObject.value.position, camera), Sub(pos, camera))
      && (distance <= MaxDistance ==> r.virtualObject.value.position == pos)
      && r.(virtualObject := m.virtualObject, recentVirtualObjectDistances := m.recentVirtualObjectDistances) == m
  {
    if m.virtualObject.None? || frame.None? then m
    else
      var obj := m.virtualObject.value;
      var cameraWorldPos := frame.value.cameraPosition;
      var cameraToPosition := SetMaximumLength(Sub(pos, cameraWorldPos), distance, MaxDistance);
      SubAddCancel(cameraWorldPos, cameraToPosition);
      m.(recentVirtualObjectDistances := [],
         virtualObject := Some(obj.(position := Add(cameraWorldPos, cameraToPosition), hasParent := true)))
  }

  /**
   * Append a clamped distance to the history and keep the last 10: the
   * history grows by one sample until it is full, then evicts its oldest.
   */
  function RecordDistance(before: seq<real>, sample: real): (h: seq<real>)
    ensures |h| == (if |before| < Capacity then |before| + 1 else Capacity)
    ensures h[|h| - 1] == sample
    ensures h[..|h| - 1] == before[|before| - (|h| - 1)..]
  {
    var h := KeepLast(before + [sample], Capacity);
    assert h[..|h| - 1] == before[|before| - (|h| - 1)..];
    h
  }

  /**
   * The camera-to-object vector `updateVirtualObjectPosition` applies to
   * the history `h` that already ends with the new sample: the clamped
   * vector itself, or with `filterPosition` the clamped vector stretched
   * to the mean of the history (a zero vector cannot be stretched and
   * stays zero).  A history of clamped distances has a positive mean once
   * the new sample is positive, so the stretched vector then has exactly
   * that length and the clamped vector's direction.
   */
  function AppliedOffset(clamped: Vec3, sample: real, h: seq<real>, filterPosition: bool): (offset: Vec3)
    requires IsLengthOf(sample, clamped) && |h| > 0 && h[|h| - 1] == sample
    ensures !filterPosition ==> offset == clamped
    ensures filterPosition ==> Average(h).Some?
    ensures filterPosition && sample > 0.0 && AllWithin(h, 0.0, MaxDistance) ==>
      && Average(h).value > 0.0
      && IsLengthOf(Average(h).value, offset)
      && SameDirection(offset, clamped)
    ensures filterPosition && sample > 0.0 && Average(h).value >= 0.0 ==> IsLengthOf(Average(h).value, offset)
    ensures filterPosition && sample > 0.0 && Average(h).value > 0.0 ==> SameDirection(offset, clamped)
    ensures filterPosition && sample == 0.0 ==> offset == Zero
  {
    if !filterPosition then clamped
    else if sample == 0.0 then
      assert clamped == Zero by {
        LengthZero(sample, clamped);
      }
      SetLength(clamped, sample, Average(h).value)
    else
      var averageDistance := Average(h).value;
      assert AllWithin(h, 0.0, MaxDistance) ==> averageDistance > 0.0 by {
        if AllWithin(h, 0.0, MaxDistance) {
          AveragePositive(h, MaxDistance);
        }
      }
      SetLength(clamped, sample, averageDistance)
  }

  /**
   * `updateVirtualObjectPosition`: move the object incrementally.  The
   * clamped distance is appended to the history (which keeps the last 10);
   * with `filterPosition` the object is put at the mean of the history
   * along the camera-to-`pos` direction, otherwise at the clamped distance.
   */
  function UpdateVirtualObjectPosition(
    m: ObjectManager, frame: Option<Frame>, pos: Vec3, distance: real, filterPosition: bool): (r: ObjectManager)
    requires Measured(frame, pos, distance)
    ensures m.virtualObject.None? || frame.None? ==> r == m
    ensures m.virtualObject.Some? && frame.Some? ==>
      var camera := frame.value.cameraPosition;
      var sample := Min(distance, MaxDistance);
      var before := m.recentVirtualObjectDistances;
      var h := r.recentVirtualObjectDistances;
      // the history grows by one sample up to 10, then evicts the oldest
      && |h| == (if |before| < Capacity then |before| + 1 else Capacity)
      && h[|h| - 1] == sample
      && h[..|h| - 1] == before[|before| - (|h| - 1)..]
      // only the object's position changes
      && r.virtualObject.Some?
      && r.virtualObject.value == m.virtualObject.value.(position := r.virtualObject.value.position)
      && r.(virtualObject := m.virtualObject, recentVirtualObjectDistances := before) == m
  {
    if m.virtualObject.None? || frame.None? then m
    else
      var obj := m.virtualObject.value;
      var cameraWorldPos := frame.value.cameraPosition;
      var cameraToPosition := SetMaximumLength(Sub(pos, cameraWorldPos), distance, MaxDistance);
      var hitTestResultDistance := Min(distance, MaxDistance);
      var recent := RecordDistance(m.recentVirtualObjectDistances, hitTestResultDistance);
      var offset := AppliedOffset(cameraToPosition, hitTestResultDistance, recent, filterPosition);
      m.(recentVirtualObjectDistances := recent,
         virtualObject := Some(obj.(position := Add(cameraWorldPos, offset))))
  }

  /**
   * The position `updateVirtualObjectPosition` gives the object, and the
   * history it leaves, in terms of the clamped vector and the history.
   */
  lemma UpdateUnfolds(m: ObjectManager, frame: Option<Frame>, pos: Vec3, distance: real, filterPosition: bool)
    requires Measured(frame, pos, distance)
    requires m.virtualObject.Some? && frame.Some?
    ensures
      var r := UpdateVirtualObjectPosition(m, frame, pos, distance, filterPosition);
      var camera := frame.value.cameraPosition;
      var clamped := SetMaximumLength(Sub(pos, camera), distance, MaxDistance);
      var sample := Min(distance, MaxDistance);
      var h := RecordDistance(m.recentVirtualObjectDistances, sample);
      && r.recentVirtualObjectDistances == h
      && r.virtualObject.Some?
      && Sub(r.virtualObject.value.position, camera) == AppliedOffset(clamped, sample, h, filterPosition)
  {
    var camera := frame.value.cameraPosition;
    var clamped := SetMaximumLength(Sub(pos, camera), distance, MaxDistance);
    var sample := Min(distance, MaxDistance);
    var h := RecordDistance(m.recentVirtualObjectDistances, sample);
    SubAddCancel(camera, AppliedOffset(clamped, sample, h, filterPosition));
  }

  /**
   * Unfiltered, `updateVirtualObjectPosition` puts the object at the
   * clamped distance along the camera-to-`pos` direction, exactly at `pos`
   * when that is within 10 m.
   */
  lemma UpdateUnfilteredPlacement(m: ObjectManager, frame: Option<Frame>, pos: Vec3, distance: real)
    requires Measured(frame, pos, distance)
    requires m.virtualObject.Some? && frame.Some?
    ensures
      var r := UpdateVirtualObjectPosition(m, frame, pos, distance, false);
      var camera := frame.value.cameraPosition;
      var offset := Sub(r.virtualObject.value.position, camera);
      && IsLengthOf(Min(distance, MaxDistance), offset)
      && SameDirection(offset, Sub(pos, camera))
      && (distance <= MaxDistance ==> r.virtualObject.value.position == pos)
  {
    UpdateUnfolds(m, frame, pos, distance, false);
  }

  /** Recording a clamped distance into a history of clamped distances keeps it one. */
  lemma RecordDistanceWithin(before: seq<real>, sample: real)
    requires AllWithin(before, 0.0, MaxDistance) && 0.0 <= sample <= MaxDistance
    ensures AllWithin(RecordDistance(before, sample), 0.0, MaxDistance)
  {
    var h := RecordDistance(before, sample);
    forall i | 0 <= i < |h|
      ensures 0.0 <= h[i] <= MaxDistance
    {
      if i < |h| - 1 {
        assert h[..|h| - 1][i] == before[|before| - (|h| - 1) + i];
      }
    }
  }

  /**
   * Filtered, `updateVirtualObjectPosition` puts the object at the mean of
   * the distance history, which includes the sample just taken, along the
   * camera-to-`pos` direction; a target at the camera itself leaves the
   * object at the camera.
   */
  lemma UpdateFilteredPlacement(m: ObjectManager, frame: Option<Frame>, pos: Vec3, distance: real)
    requires Measured(frame, pos, distance)
    requires HistoryValid(m)
    requires m.virtualObject.Some? && frame.Some?
    ensures
      var r := UpdateVirtualObjectPosition(m, frame, pos, distance, true);
      var camera := frame.value.cameraPosition;
      var h := r.recentVirtualObjectDistances;
      var offset := Sub(r.virtualObject.value.position, camera);
      && Average(h).Some?
      && (distance > 0.0 ==> Average(h).value > 0.0)
      && (distance > 0.0 ==> IsLengthOf(Average(h).value, offset))
      && (distance > 0.0 ==> SameDirection(offset, Sub(pos, camera)))
      && (distance == 0.0 ==> r.virtualObject.value.position == camera)
  {
    var camera := frame.value.cameraPosition;
    var clamped := SetMaximumLength(Sub(pos, camera), distance, MaxDistance);
    var sample := Min(distance, MaxDistance);
    var h := RecordDistance(m.recentVirtualObjectDistances, sample);
    var offset := AppliedOffset(clamped, sample, h, true);
    var r := UpdateVirtualObjectPosition(m, frame, pos, distance, true);
    UpdateUnfolds(m, frame, pos, distance, true);
    assert Sub(r.virtualObject.value.position, camera) == offset;
    assert r.recentVirtualObjectDistances == h;
    if distance > 0.0 {
      assert sample > 0.0;
      RecordDistanceWithin(m.recentVirtualObjectDistances, sample);
      SameDirectionTransitive(offset, clamped, Sub(pos, camera));
    } else if distance == 0.0 {
      assert sample == 0.0;
      assert offset == Zero;
      SubZero(r.virtualObject.value.position, camera);
    }
  }

  /**
   * `moveVirtualObjectToPosition`: with no position nothing moves, and the
   * selection is cleared only when no object has been placed yet; otherwise
   * the move is immediate or incremental as asked.
   */
  function MoveVirtualObjectToPosition(
    m: ObjectManager, frame: Option<Frame>, pos: Option<Vec3>, instantly: bool, filterPosition: bool, distance: real): (r: ObjectManager)
    requires pos.Some? ==> Measured(frame, pos.value, distance)
    ensures pos.None? ==> r.virtualObject == m.virtualObject && r.recentVirtualObjectDistances == m.recentVirtualObjectDistances
    ensures pos.None? && m.virtualObject.Some? ==> r == m
    ensures pos.None? && m.virtualObject.None? ==> r == m.(selectedObjectId := NoSelection)
    ensures pos.Some? && instantly ==> r == SetNewVirtualObjectPosition(m, frame, pos.value, distance)
    ensures pos.Some? && !instantly ==> r == UpdateVirtualObjectPosition(m, frame, pos.value, distance, filterPosition)
  {
    if pos.None? then
      if m.virtualObject.None? then ResetVirtualObject(m) else m
    else if instantly then SetNewVirtualObjectPosition(m, frame, pos.value, distance)
    else UpdateVirtualObjectPosition(m, frame, pos.value, distance, filterPosition)
  }

  /**
   * `chooseObject`: while an object is loading the button does nothing;
   * otherwise the pending "place an object" prompt is cancelled and the
   * selection menu is shown (`r.0`).
   */
  function ChooseObject(m: ObjectManager, tm: TextManager): (r: (bool, TextManager))
    ensures m.isLoadingObject ==> r == (false, tm)
    ensures !m.isLoadingObject ==>
      r.0 && ContentPlacement !in r.1.scheduled
      && r.1 == tm.(scheduled := r.1.scheduled)
      && (forall t :: t in tm.scheduled && t != ContentPlacement ==> t in r.1.scheduled && r.1.scheduled[t] == tm.scheduled[t])
      && (forall t :: t in r.1.scheduled ==> t in tm.scheduled)
  {
    if m.isLoadingObject then (false, tm)
    else (true, Cancel(tm, ContentPlacement))
  }

  /**
   * `loadVirtualObject` up to the background load: the previous object is
   * reset, the new one becomes the active object, detached, and loading
   * is flagged so that competing actions are refused.
   */
  function LoadVirtualObject(m: ObjectManager, index: nat): (r: ObjectManager)
    ensures r.isLoadingObject
    ensures r.virtualObject.Some? && r.virtualObject.value.modelIndex == index && !r.virtualObject.value.hasParent
    ensures r.selectedObjectId == NoSelection
    ensures r.recentVirtualObjectDistances == m.recentVirtualObjectDistances
    ensures r.dragOnInfinitePlanesEnabled == m.dragOnInfinitePlanesEnabled
  {
    ResetVirtualObject(m).(isLoadingObject := true, virtualObject := Some(VirtualObject(index, Zero, false)))
  }

  /**
   * Completion of the background load, back on the main queue: place the
   * object immediately at the focus square's last position, or at the
   * origin when there is none, and clear the loading flag.
   */
  function FinishLoading(m: ObjectManager, frame: Option<Frame>, lastFocusSquarePos: Option<Vec3>, distance: real): (r: ObjectManager)
    requires Measured(frame, lastFocusSquarePos.GetOr(Zero), distance)
    ensures !r.isLoadingObject
    ensures m.virtualObject.Some? && frame.Some? ==>
      var camera := frame.value.cameraPosition;
      var target := lastFocusSquarePos.GetOr(Zero);
      && r.virtualObject.Some? && r.virtualObject.value.hasParent
      && r.virtualObject.value.modelIndex == m.virtualObject.value.modelIndex
      && r.recentVirtualObjectDistances == []
      && IsLengthOf(Min(distance, MaxDistance), Sub(r.virtualObject.value.position, camera))
      && SameDirection(Sub(r.virtualObject.value.position, camera), Sub(target, camera))
      && (distance <= MaxDistance ==> r.virtualObject.value.position == target)
      && r.(virtualObject := m.virtualObject, recentVirtualObjectDistances := m.recentVirtualObjectDistances,
            isLoadingObject := m.isLoadingObject) == m
    ensures m.virtualObject.None? || frame.None? ==> r == m.(isLoadingObject := false)
  {
    SetNewVirtualObjectPosition(m, frame, lastFocusSquarePos.GetOr(Zero), distance).(isLoadingObject := false)
  }

  function Abs(a: real): real {
    if a < 0.0 then -a else a
  }

  /**
   * `local`, a position in the anchor's frame, lies over the plane's
   * extent widened by the tolerance on every side.
   */
  predicate OverWidenedExtent(local: Vec3, anchor: PlaneAnchor) {
    && Abs(local.x - anchor.center.x) <= anchor.extent.x * (0.5 + SnapTolerance)
    && Abs(local.z - anchor.center.z) <= anchor.extent.z * (0.5 + SnapTolerance)
  }

  /** The object should be dropped onto the plane. */
  predicate ShouldSnap(local: Vec3, anchor: PlaneAnchor) {
    && local.y != 0.0
    && OverWidenedExtent(local, anchor)
    && -VerticalAllowance < local.y < VerticalAllowance
  }

  /**
   * `checkIfObjectShouldMoveOntoPlane`.  `anchorNode` is the scene node
   * for the anchor, as the conversion of a position into the anchor's
   * frame, or nothing when the anchor has no node.  When the object lies
   * off the plane but within the widened extent and the vertical band, its
   * world height becomes the plane's; nothing else ever changes.
   */
  function CheckIfObjectShouldMoveOntoPlane(m: ObjectManager, anchor: PlaneAnchor, anchorNode: Option<Vec3 -> Vec3>): (r: ObjectManager)
    ensures (m.virtualObject.Some? && anchorNode.Some? && ShouldSnap(anchorNode.value(m.virtualObject.value.position), anchor)) ==>
      var obj := m.virtualObject.value;
      r == m.(virtualObject := Some(obj.(position := obj.position.(y := anchor.worldPosition.y))))
    ensures !(m.virtualObject.Some? && anchorNode.Some? && ShouldSnap(anchorNode.value(m.virtualObject.value.position), anchor)) ==>
      r == m
  {
    if m.virtualObject.None? || anchorNode.None? then m
    else
      var obj := m.virtualObject.value;
      var objectPos := anchorNode.value(obj.position);
      if objectPos.y == 0.0 then m
      else
        var tolerance := SnapTolerance;
        var minX := anchor.center.x - anchor.extent.x / 2.0 - anchor.extent.x * tolerance;
        var maxX := anchor.center.x + anchor.extent.x / 2.0 + anchor.extent.x * tolerance;
        var minZ := anchor.center.z - anchor.extent.z / 2.0 - anchor.extent.z * tolerance;
        var maxZ := anchor.center.z + anchor.extent.z / 2.0 + anchor.extent.z * tolerance;
        if objectPos.x < minX || objectPos.x > maxX || objectPos.z < minZ || objectPos.z > maxZ then m
        else if objectPos.y > -VerticalAllowance && objectPos.y < VerticalAllowance then
          m.(virtualObject := Some(obj.(position := obj.position.(y := anchor.worldPosition.y))))
        else m
  }
}

=== FILE: placement_props.dfy ===
/**
 * Properties of the placement logic that span several calls: the distance
 * history stays bounded and holds exactly the latest clamped samples,
 * smoothing never carries an object beyond 10 m, and the first smoothed
 * move after a fresh placement is not smoothed at all.
 */
module PlacementProperties {
  import opened Wrappers
  import opened Vectors
  import opened Scene
  import opened DistanceHistory
  import opened VirtualObjectManager

  /** One incremental move request: a target, its distance from the camera, and whether to smooth. */
  datatype Move = Move(pos: Vec3, distance: real, filterPosition: bool)

  predicate MovesMeasured(frame: Option<Frame>, moves: seq<Move>) {
    forall i :: 0 <= i < |moves| ==> Measured(frame, moves[i].pos, moves[i].distance)
  }

  /** `updateVirtualObjectPosition` for each move in turn. */
  function UpdateAll(m: ObjectManager, frame: Option<Frame>, moves: seq<Move>): ObjectManager
    requires MovesMeasured(frame, moves)
    decreases |moves|
  {
    if |moves| == 0 then m
    else
      var mv := moves[0];
      UpdateAll(UpdateVirtualObjectPosition(m, frame, mv.pos, mv.distance, mv.filterPosition), frame, moves[1..])
  }

  /** The distances the moves record: each clamped to 10 m. */
  function ClampedDistances(moves: seq<Move>): (d: seq<real>)
    ensures |d| == |moves|
    ensures forall i :: 0 <= i < |moves| ==> d[i] == Min(moves[i].distance, MaxDistance)
  {
    if |moves| == 0 then [] else [Min(moves[0].distance, MaxDistance)] + ClampedDistances(moves[1..])
  }

  lemma UpdateRecords(m: ObjectManager, frame: Option<Frame>, mv: Move)
    requires Measured(frame, mv.pos, mv.distance)
    requires m.virtualObject.Some? && frame.Some?
    ensures
      var next := UpdateVirtualObjectPosition(m, frame, mv.pos, mv.distance, mv.filterPosition);
      && next.recentVirtualObjectDistances == KeepLast(m.recentVirtualObjectDistances + [Min(mv.distance, MaxDistance)], Capacity)
      && next.virtualObject.Some?
  {
  }

  /** Dropping a prefix that leaves at least `n` elements does not change the last `n`. */
  lemma KeepLastOfSuffix(t: seq<real>, k: nat, n: nat)
    requires k <= |t| && |t| - k >= n
    ensures KeepLast(t[k..], n) == KeepLast(t, n)
  {
    if |t| - k > n {
      assert t[k..][|t| - k - n..] == t[|t| - n..];
    } else if |t| > n {
      assert t[k..] == t[|t| - n..];
    }
  }

  /** Trimming early does not change what the last `n` elements are. */
  lemma KeepLastTwice(a: seq<real>, b: seq<real>, n: nat)
    ensures KeepLast(KeepLast(a, n) + b, n) == KeepLast(a + b, n)
  {
    if |a| > n {
      var k := |a| - n;
      assert KeepLast(a, n) == a[k..];
      assert a[k..] + b == (a + b)[k..];
      KeepLastOfSuffix(a + b, k, n);
    }
  }

  lemma HistoryStep(h: seq<real>, d: real, rest: seq<real>)
    ensures KeepLast(KeepLast(h + [d], Capacity) + rest, Capacity) == KeepLast(h + ([d] + rest), Capacity)
  {
    KeepLastTwice(h + [d], rest, Capacity);
    assert h + [d] + rest == h + ([d] + rest);
  }

  /**
   * However many moves are made, the history holds exactly the clamped
   * distances of the most recent ones, at most 10 of them, oldest first.
   */
  lemma {:induction false} HistoryIsLatestSamples(m: ObjectManager, frame: Option<Frame>, moves: seq<Move>)
    requires MovesMeasured(frame, moves)
    requires m.virtualObject.Some? && frame.Some?
    requires |m.recentVirtualObjectDistances| <= Capacity
    ensures UpdateAll(m, frame, moves).recentVirtualObjectDistances
         == KeepLast(m.recentVirtualObjectDistances + ClampedDistances(moves), Capacity)
    ensures UpdateAll(m, frame, moves).virtualObject.Some?
    decreases |moves|
  {
    if |moves| == 0 {
      assert m.recentVirtualObjectDistances + [] == m.recentVirtualObjectDistances;
    } else {
      var mv := moves[0];
      var next := UpdateVirtualObjectPosition(m, frame, mv.pos, mv.distance, mv.filterPosition);
      var d := Min(mv.distance, MaxDistance);
      var h := m.recentVirtualObjectDistances;
      UpdateRecords(m, frame, mv);
      HistoryIsLatestSamples(next, frame, moves[1..]);
      assert UpdateAll(m, frame, moves) == UpdateAll(next, frame, moves[1..]);
      HistoryStep(h, d, ClampedDistances(moves[1..]));
      assert ClampedDistances(moves) == [d] + ClampedDistances(moves[1..]);
    }
  }

  /**
   * Together with `HistoryIsLatestSamples`: once 10 or more samples have
   * been appended, nothing older survives in the history.
   */
  lemma KeepLastOfLongSuffix(a: seq<real>, b: seq<real>, n: nat)
    requires |b| >= n
    ensures KeepLast(a + b, n) == b[|b| - n..]
  {
    var r := KeepLast(a + b, n);
    forall i | 0 <= i < n
      ensures r[i] == b[|b| - n + i]
    {
      assert (a + b)[|a + b| - n + i] == b[|b| - n + i];
    }
  }

  /** The history stays within 10 samples, each a clamped distance. */
  lemma UpdateKeepsHistoryValid(m: ObjectManager, frame: Option<Frame>, pos: Vec3, distance: real, filterPosition: bool)
    requires Measured(frame, pos, distance)
    requires HistoryValid(m)
    ensures HistoryValid(UpdateVirtualObjectPosition(m, frame, pos, distance, filterPosition))
  {
    if m.virtualObject.Some? && frame.Some? {
      var before := m.recentVirtualObjectDistances;
      var sample := Min(distance, MaxDistance);
      assert 0.0 <= sample <= MaxDistance;
      var h := UpdateVirtualObjectPosition(m, frame, pos, distance, filterPosition).recentVirtualObjectDistances;
      forall i | 0 <= i < |h|
        ensures 0.0 <= h[i] <= MaxDistance
      {
        if i < |h| - 1 {
          assert h[..|h| - 1][i] == before[|before| - (|h| - 1) + i];
        }
      }
    }
  }

  /** An immediate placement empties the history. */
  lemma SetNewKeepsHistoryValid(m: ObjectManager, frame: Option<Frame>, pos: Vec3, distance: real)
    requires Measured(frame, pos, distance)
    requires HistoryValid(m)
    ensures HistoryValid(SetNewVirtualObjectPosition(m, frame, pos, distance))
  {
  }

  lemma MoveKeepsHistoryValid(
    m: ObjectManager, frame: Option<Frame>, pos: Option<Vec3>, instantly: bool, filterPosition: bool, distance: real)
    requires pos.Some? ==> Measured(frame, pos.value, distance)
    requires HistoryValid(m)
    ensures HistoryValid(MoveVirtualObjectToPosition(m, frame, pos, instantly, filterPosition, distance))
  {
    if pos.Some? {
      if instantly {
        SetNewKeepsHistoryValid(m, frame, pos.value, distance);
      } else {
        UpdateKeepsHistoryValid(m, frame, pos.value, distance, filterPosition);
      }
    }
  }

  lemma FinishLoadingKeepsHistoryValid(m: ObjectManager, frame: Option<Frame>, lastFocusSquarePos: Option<Vec3>, distance: real)
    requires Measured(frame, lastFocusSquarePos.GetOr(Zero), distance)
    requires HistoryValid(m)
    ensures HistoryValid(FinishLoading(m, frame, lastFocusSquarePos, distance))
  {
  }

  lemma SnapKeepsHistoryValid(m: ObjectManager, anchor: PlaneAnchor, anchorNode: Option<Vec3 -> Vec3>)
    requires HistoryValid(m)
    ensures HistoryValid(CheckIfObjectShouldMoveOntoPlane(m, anchor, anchorNode))
  {
  }

  /**
   * Smoothing never carries the object further than 10 m from the camera:
   * the mean of clamped samples is itself at most 10 m.
   */
  lemma FilteredPlacementWithinMaxDistance(m: ObjectManager, frame: Option<Frame>, pos: Vec3, distance: real)
    requires Measured(frame, pos, distance)
    requires HistoryValid(m)
    requires m.virtualObject.Some? && frame.Some? && distance > 0.0
    ensures
      var r := UpdateVirtualObjectPosition(m, frame, pos, distance, true);
      var offset := Sub(r.virtualObject.value.position, frame.value.cameraPosition);
      exists len :: 0.0 <= len <= MaxDistance && IsLengthOf(len, offset)
  {
    var r := UpdateVirtualObjectPosition(m, frame, pos, distance, true);
    var h := r.recentVirtualObjectDistances;
    UpdateKeepsHistoryValid(m, frame, pos, distance, true);
    AverageWithin(h, 0.0, MaxDistance);
    UpdateFilteredPlacement(m, frame, pos, distance);
    var offset := Sub(r.virtualObject.value.position, frame.value.cameraPosition);
    assert IsLengthOf(Average(h).value, offset);
  }

  lemma AverageOfOne(s: real)
    ensures Average([s]) == Some(s)
  {
    assert [s][..0] == [];
    assert Sum([s]) == s;
  }

  /** Stretching a vector to its own length changes nothing. */
  lemma SetLengthToOwnLength(v: Vec3, len: real)
    requires IsLengthOf(len, v)
    ensures SetLength(v, len, len) == v
  {
    if len > 0.0 {
      ScaleNormalized(v, len, len);
      assert len / len == 1.0;
    }
  }

  /**
   * With an empty history (as right after an immediate placement) the
   * mean is the sample just taken, so a smoothed move lands exactly where
   * an unsmoothed one would.
   */
  lemma FilterHasNoEffectOnFreshHistory(m: ObjectManager, frame: Option<Frame>, pos: Vec3, distance: real)
    requires Measured(frame, pos, distance)
    requires m.recentVirtualObjectDistances == []
    ensures UpdateVirtualObjectPosition(m, frame, pos, distance, true)
         == UpdateVirtualObjectPosition(m, frame, pos, distance, false)
  {
    if m.virtualObject.Some? && frame.Some? {
      var camera := frame.value.cameraPosition;
      var clamped := SetMaximumLength(Sub(pos, camera), distance, MaxDistance);
      var sample := Min(distance, MaxDistance);
      var h := RecordDistance([], sample);
      assert h == [sample];
      AverageOfOne(sample);
      SetLengthToOwnLength(clamped, sample);
      assert AppliedOffset(clamped, sample, h, true) == clamped;
    }
  }

  /** The first smoothed move after an immediate placement is not smoothed. */
  lemma FirstMoveAfterPlacementIsUnfiltered(
    m: ObjectManager, frame: Option<Frame>, placed: Vec3, placedDistance: real, pos: Vec3, distance: real)
    requires Measured(frame, placed, placedDistance) && Measured(frame, pos, distance)
    requires m.virtualObject.Some? && frame.Some?
    ensures
      var p := SetNewVirtualObjectPosition(m, frame, placed, placedDistance);
      UpdateVirtualObjectPosition(p, frame, pos, distance, true)
        == UpdateVirtualObjectPosition(p, frame, pos, distance, false)
  {
    FilterHasNoEffectOnFreshHistory(SetNewVirtualObjectPosition(m, frame, placed, placedDistance), frame, pos, distance);
  }

  /** A 1 m x 1 m plane centred on its anchor, whose anchor sits at height 0.5 m. */
  const ExamplePlane := PlaneAnchor(0, Zero, Vec3(1.0, 0.0, 1.0), Vec3(0.0, 0.5, 0.0))

  /** The anchor's node as a pure translation: world positions relative to the anchor. */
  function AnchorFrame(anchor: PlaneAnchor): Vec3 -> Vec3 {
    v => Sub(v, anchor.worldPosition)
  }

  function WithObjectAt(m: ObjectManager, p: Vec3): ObjectManager {
    m.(virtualObject := Some(VirtualObject(0, p, true)))
  }

  /**
   * An object 2 cm above the plane and over it is dropped onto the plane;
   * one 10 cm above it, or outside the widened extent, is left alone.
   */
  lemma SnapExamples(m: ObjectManager)
    ensures CheckIfObjectShouldMoveOntoPlane(WithObjectAt(m, Vec3(0.05, 0.52, 0.0)), ExamplePlane, Some(AnchorFrame(ExamplePlane)))
         == WithObjectAt(m, Vec3(0.05, 0.5, 0.0))
    ensures CheckIfObjectShouldMoveOntoPlane(WithObjectAt(m, Vec3(0.05, 0.6, 0.0)), ExamplePlane, Some(AnchorFrame(ExamplePlane)))
         == WithObjectAt(m, Vec3(0.05, 0.6, 0.0))
    ensures CheckIfObjectShouldMoveOntoPlane(WithObjectAt(m, Vec3(0.65, 0.52, 0.0)), ExamplePlane, Some(AnchorFrame(ExamplePlane)))
         == WithObjectAt(m, Vec3(0.65, 0.52, 0.0))
  {
    assert ShouldSnap(Vec3(0.05, 0.52 - 0.5, 0.0), ExamplePlane);
    assert !ShouldSnap(Vec3(0.05, 0.6 - 0.5, 0.0), ExamplePlane);
    assert !ShouldSnap(Vec3(0.65, 0.52 - 0.5, 0.0), ExamplePlane);
  }

  /**
   * With the anchor's node a translation, an object that has been dropped
   * onto a plane lies in it and is not moved again.
   */
  lemma SnapIsIdempotent(m: ObjectManager, anchor: PlaneAnchor)
    ensures
      var node := Some(AnchorFrame(anchor));
      var once := CheckIfObjectShouldMoveOntoPlane(m, anchor, node);
      CheckIfObjectShouldMoveOntoPlane(once, anchor, node) == once
  {
    var node := Some(AnchorFrame(anchor));
    var once := CheckIfObjectShouldMoveOntoPlane(m, anchor, node);
    if once != m {
      assert AnchorFrame(anchor)(once.virtualObject.value.position).y == 0.0;
    }
  }
}

=== FILE: scene.dfy ===
/**
 * What the tracking session hands to the core: detected plane anchors and
 * the camera pose of the current frame.  Only the parts the placement
 * logic reads are kept.
 */
module Scene {
  import opened Vectors

  /** Stable identity of a detected surface (`ARPlaneAnchor` is hashed by identity). */
  type AnchorId = nat

  /**
   * An `ARPlaneAnchor`: `center` and `extent` are in the plane's own
   * coordinate frame; `worldPosition` is the translation column of its
   * `transform` (`transform.columns.3`).
   */
  datatype PlaneAnchor = PlaneAnchor(id: AnchorId, center: Vec3, extent: Vec3, worldPosition: Vec3)

  /** The current `ARFrame`, reduced to the camera's world position. */
  datatype Frame = Frame(cameraPosition: Vec3)
}

=== FILE: session.dfy ===
/**
 * `ARSessionManager`: the registry of detected planes, the session
 * configuration and its runs, the tracking-quality state machine with its
 * 3DOF fallback timer, error classification, and the guarded restart
 * sequence.  Every callback is a pure function from the manager's state to
 * its next state; what ARKit, UIKit and the run loop do is reduced to the
 * events that reach the manager.
 */
module SessionManager {
  import opened Wrappers
  import opened Vectors
  import opened Scene
  import opened TextFeedback
  import opened VirtualObjectManager

  /**
   * The class of the current `ARSessionConfiguration`:
   * `ARWorldTrackingSessionConfiguration` (six degrees of freedom) or the
   * plain orientation-only `ARSessionConfiguration` (three).
   */
  datatype ConfigKind = WorldTracking | OrientationTracking

  datatype PlaneDetection = NoPlaneDetection | Horizontal

  datatype SessionConfig = SessionConfig(kind: ConfigKind, planeDetection: PlaneDetection, isLightEstimationEnabled: bool)

  /** A freshly created configuration: no plane detection, light estimation on. */
  function NewConfig(kind: ConfigKind): SessionConfig {
    SessionConfig(kind, NoPlaneDetection, true)
  }

  datatype RunOptions = RunOptions(resetTracking: bool, removeExistingAnchors: bool)

  const NoOptions := RunOptions(false, false)
  const ResetAndRemove := RunOptions(true, true)

  /** One `session.run(config, options:)` call, recorded with the configuration it was given. */
  datatype Run = Run(config: SessionConfig, options: RunOptions)

  /** `ARCamera.TrackingState`; the reason attached to `.limited` plays no part here. */
  datatype TrackingState = NotAvailable | Limited | Normal

  /** The overlay node shown for a detected surface, reduced to the anchor it renders. */
  datatype Plane = Plane(anchor: PlaneAnchor)

  /** `ARError.Code`. */
  datatype ARErrorCode =
    | UnsupportedConfiguration
    | SensorUnavailable
    | SensorFailed
    | CameraUnauthorized
    | WorldTrackingFailed

  /** What `session(_:didFailWithError:)` receives: an `ARError` or some other error. */
  datatype SessionError = NotARError | ARError(code: ARErrorCode)

  /** Identity of a scheduled `Timer`. */
  type TimerId = nat

  /**
   * The manager's state.  `trackingFallbackTimer` is the handle the
   * manager holds; `liveTimers` are the timers scheduled and neither fired
   * nor invalidated yet, whether or not a handle to them is still held;
   * `nextTimerId` names the next timer to be scheduled.  `runs` lists every
   * configuration the session was run with, oldest first.
   * `pendingReenables` counts the five-second restart cool-downs not yet
   * elapsed.  `ambientLightSetting` is the persisted user setting the
   * `use3DOFTracking` observer reads.
   */
  datatype Session = Session(
    config: SessionConfig,
    use3DOFTracking: bool,
    use3DOFTrackingFallback: bool,
    trackingFallbackTimer: Option<TimerId>,
    liveTimers: set<TimerId>,
    nextTimerId: TimerId,
    runs: seq<Run>,
    planes: map<AnchorId, Plane>,
    restartEnabled: bool,
    pendingReenables: nat,
    ambientLightSetting: bool,
    text: TextManager,
    objects: ObjectManager)

  function InitialSession(ambientLightSetting: bool): Session {
    Session(NewConfig(WorldTracking), false, false, None, {}, 0, [], map[], true, 0, ambientLightSetting, Idle, Initial)
  }

  /** The fallback timer `t` is still live: scheduled and neither fired nor invalidated. */
  predicate Live(s: Session, t: TimerId) {
    t in s.liveTimers
  }

  /** Invalidate the held fallback timer, if any, and drop the handle. */
  function ClearFallbackTimer(s: Session): (r: Session)
    ensures r.trackingFallbackTimer.None?
    ensures s.trackingFallbackTimer.Some? ==> r.liveTimers == s.liveTimers - {s.trackingFallbackTimer.value}
    ensures s.trackingFallbackTimer.None? ==> r == s
    ensures r.(trackingFallbackTimer := s.trackingFallbackTimer, liveTimers := s.liveTimers) == s
  {
    match s.trackingFallbackTimer
    case None => s
    case Some(t) => s.(liveTimers := s.liveTimers - {t}, trackingFallbackTimer := None)
  }

  /**
   * Assigning `use3DOFTracking`.  The observer runs on every assignment:
   * turning it on replaces the configuration by a new orientation-only
   * one, turning it off keeps whatever configuration is current (a
   * world-tracking configuration is not brought back); either way light
   * estimation follows the persisted setting and the session is re-run.
   */
  function SetUse3DOFTracking(s: Session, on: bool): (r: Session)
    ensures r.use3DOFTracking == on
    ensures on ==> r.config.kind == OrientationTracking && r.config.planeDetection == NoPlaneDetection
    ensures !on ==> r.config.kind == s.config.kind && r.config.planeDetection == s.config.planeDetection
    ensures r.config.isLightEstimationEnabled == s.ambientLightSetting
    ensures r.runs == s.runs + [Run(r.config, NoOptions)]
    ensures r.(use3DOFTracking := s.use3DOFTracking, config := s.config, runs := s.runs) == s
  {
    var base := if on then NewConfig(OrientationTracking) else s.config;
    var config := base.(isLightEstimationEnabled := s.ambientLightSetting);
    s.(use3DOFTracking := on, config := config, runs := s.runs + [Run(config, NoOptions)])
  }

  /**
   * `addPlane`: register the surface under its anchor, withdraw the
   * "find a surface" prompt, and prompt for placing an object in 7.5 s
   * unless one is already placed.
   */
  function AddPlane(s: Session, anchor: PlaneAnchor): (r: Session)
    ensures r.planes == s.planes[anchor.id := Plane(anchor)]
    ensures PlaneEstimation !in r.text.scheduled
    ensures s.objects.virtualObject.None? ==>
      ContentPlacement in r.text.scheduled && r.text.scheduled[ContentPlacement] == 7.5
    ensures s.objects.virtualObject.Some? ==>
      (ContentPlacement in r.text.scheduled <==> ContentPlacement in s.text.scheduled)
    ensures forall t :: t != PlaneEstimation && t != ContentPlacement ==>
      (t in r.text.scheduled <==> t in s.text.scheduled)
    ensures s.objects.virtualObject.None? ==>
      r.text.scheduled == (s.text.scheduled - {PlaneEstimation})[ContentPlacement := 7.5]
    ensures s.objects.virtualObject.Some? ==> r.text.scheduled == s.text.scheduled - {PlaneEstimation}
    ensures r.text.alert == s.text.alert && r.text.blurred == s.text.blurred
    ensures r.(planes := s.planes, text := s.text) == s
  {
    var text := Cancel(s.text, PlaneEstimation);
    var text := if s.objects.virtualObject.None? then Schedule(text, ContentPlacement, 7.5) else text;
    s.(planes := s.planes[anchor.id := Plane(anchor)], text := text)
  }

  /** `updatePlane`: refresh a registered surface from its anchor; an unknown anchor is ignored. */
  function UpdatePlane(s: Session, anchor: PlaneAnchor): (r: Session)
    ensures anchor.id !in s.planes ==> r == s
    ensures anchor.id in s.planes ==> anchor.id in r.planes && r.planes[anchor.id] == Plane(anchor)
    ensures r.planes.Keys == s.planes.Keys
    ensures forall id :: id in s.planes && id != anchor.id ==> r.planes[id] == s.planes[id]
    ensures r.(planes := s.planes) == s
  {
    if anchor.id in s.planes then s.(planes := s.planes[anchor.id := Plane(anchor)]) else s
  }

  /** `removePlane`: forget a surface; forgetting an unknown one changes nothing. */
  function RemovePlane(s: Session, id: AnchorId): (r: Session)
    ensures id !in r.planes
    ensures id !in s.planes ==> r == s
    ensures r.planes.Keys == s.planes.Keys - {id}
    ensures forall k :: k in r.planes ==> r.planes[k] == s.planes[k]
    ensures r.(planes := s.planes) == s
  {
    if id in s.planes then s.(planes := s.planes - {id}) else s
  }

  /**
   * `restartPlaneDetection`: a world-tracking configuration is switched to
   * horizontal plane detection and re-run from scratch (an orientation-only
   * one is left alone); the fallback timer is always dropped; the "find a
   * surface" prompt is scheduled in 7.5 s.
   */
  function RestartPlaneDetection(s: Session): (r: Session)
    ensures r.trackingFallbackTimer.None?
    ensures r.liveTimers == if s.trackingFallbackTimer.Some? then s.liveTimers - {s.trackingFallbackTimer.value} else s.liveTimers
    ensures s.config.kind == WorldTracking ==>
      r.config == s.config.(planeDetection := Horizontal) && r.runs == s.runs + [Run(r.config, ResetAndRemove)]
    ensures s.config.kind == OrientationTracking ==> r.config == s.config && r.runs == s.runs
    ensures r.text == Schedule(s.text, PlaneEstimation, 7.5)
    ensures r.(config := s.config, runs := s.runs, trackingFallbackTimer := s.trackingFallbackTimer,
               liveTimers := s.liveTimers, text := s.text) == s
  {
    var s1 := if s.config.kind == WorldTracking then
      var config := s.config.(planeDetection := Horizontal);
      s.(config := config, runs := s.runs + [Run(config, ResetAndRemove)])
    else s;
    var s2 := ClearFallbackTimer(s1);
    s2.(text := Schedule(s2.text, PlaneEstimation, 7.5))
  }

  /**
   * `session(_:cameraDidChangeTrackingState:)`.  Not available: escalate
   * the feedback after 5 s.  Limited: with the fallback enabled, schedule
   * a new 10 s fallback timer and hold it, without invalidating a timer
   * held before; otherwise escalate after 10 s.  Normal: withdraw the
   * escalation and, with the fallback enabled, invalidate and drop the
   * held timer.
   */
  function CameraDidChangeTrackingState(s: Session, state: TrackingState): (r: Session)
    ensures state == NotAvailable ==> r == s.(text := Schedule(s.text, TrackingStateEscalation, 5.0))
    ensures state == Limited && s.use3DOFTrackingFallback ==>
      && r.trackingFallbackTimer == Some(s.nextTimerId)
      && r.liveTimers == s.liveTimers + {s.nextTimerId}
      && r.nextTimerId == s.nextTimerId + 1
      && r.(trackingFallbackTimer := s.trackingFallbackTimer, liveTimers := s.liveTimers, nextTimerId := s.nextTimerId) == s
    ensures state == Limited && !s.use3DOFTrackingFallback ==>
      r == s.(text := Schedule(s.text, TrackingStateEscalation, 10.0))
    ensures state == Normal ==>
      && TrackingStateEscalation !in r.text.scheduled
      && r.text == Cancel(s.text, TrackingStateEscalation)
      && (s.use3DOFTrackingFallback ==> r.trackingFallbackTimer.None?)
      && (s.use3DOFTrackingFallback || s.trackingFallbackTimer.None? ==>
            r == ClearFallbackTimer(s).(text := r.text))
      && (!s.use3DOFTrackingFallback ==> r == s.(text := r.text))
  {
    match state
    case NotAvailable => s.(text := Schedule(s.text, TrackingStateEscalation, 5.0))
    case Limited =>
      if s.use3DOFTrackingFallback then
        var t := s.nextTimerId;
        s.(liveTimers := s.liveTimers + {t}, trackingFallbackTimer := Some(t), nextTimerId := t + 1)
      else
        s.(text := Schedule(s.text, TrackingStateEscalation, 10.0))
    case Normal =>
      var s1 := s.(text := Cancel(s.text, TrackingStateEscalation));
      if s.use3DOFTrackingFallback && s.trackingFallbackTimer.Some? then ClearFallbackTimer(s1) else s1
  }

  /**
   * Fallback timer `t` fires.  Only a live timer fires, and only once.
   * Its block switches to 3DOF tracking and then invalidates and drops
   * whatever timer the manager holds at that moment, which need not be
   * `t` itself.
   */
  function FallbackTimerFired(s: Session, t: TimerId): (r: Session)
    ensures !Live(s, t) ==> r == s
    ensures Live(s, t) ==>
      && r.use3DOFTracking
      && r.config.kind == OrientationTracking
      && r.trackingFallbackTimer.None?
      && !Live(r, t)
      && r.liveTimers == s.liveTimers - {t} - (if s.trackingFallbackTimer.Some? then {s.trackingFallbackTimer.value} else {})
      && r.config.isLightEstimationEnabled == s.ambientLightSetting
      && r.config.planeDetection == NoPlaneDetection
      && r.runs == s.runs + [Run(r.config, NoOptions)]
      && r.(use3DOFTracking := s.use3DOFTracking, config := s.config, runs := s.runs,
            trackingFallbackTimer := s.trackingFallbackTimer, liveTimers := s.liveTimers) == s
  {
    if !Live(s, t) then s
    else
      var s1 := s.(liveTimers := s.liveTimers - {t});
      ClearFallbackTimer(SetUse3DOFTracking(s1, true))
  }

  /**
   * `displayErrorMessage`: blur the camera image and show the alert,
   * with a "Reset" action only when a restart is allowed.
   */
  function DisplayErrorMessage(s: Session, kind: AlertKind, allowRestart: bool): (r: Session)
    ensures r.text.blurred
    ensures r.text.alert == Some(Alert(kind, allowRestart))
    ensures r.text.scheduled == s.text.scheduled
    ensures r.(text := s.text) == s
  {
    s.(text := ShowAlert(Blur(s.text), Alert(kind, allowRestart)))
  }

  /** An error is recoverable exactly when world tracking failed. */
  predicate IsRecoverable(code: ARErrorCode) {
    code == WorldTrackingFailed
  }

  /**
   * `session(_:didFailWithError:)`: errors that are not `ARError`s are
   * ignored; an `ARError` is reported, offering a reset exactly when it
   * is recoverable.
   */
  function DidFailWithError(s: Session, error: SessionError): (r: Session)
    ensures error.NotARError? ==> r == s
    ensures error.ARError? ==>
      && r.text.blurred
      && r.text.alert.Some?
      && r.text.alert.value.kind == SessionFailed(error.code == WorldTrackingFailed)
      && (r.text.alert.value.offersReset <==> error.code == WorldTrackingFailed)
      && r.text.scheduled == s.text.scheduled
      && r.(text := s.text) == s
  {
    match error
    case NotARError => s
    case ARError(code) =>
      var isRecoverable := IsRecoverable(code);
      DisplayErrorMessage(s, SessionFailed(isRecoverable), isRecoverable)
  }

  /** `sessionWasInterrupted`: blur and tell the user the session will be reset. */
  function SessionWasInterrupted(s: Session): (r: Session)
    ensures r.text.blurred && r.text.alert == Some(Alert(SessionInterrupted, false))
    ensures r.text.scheduled == s.text.scheduled
    ensures r.(text := s.text) == s
  {
    s.(text := ShowAlert(Blur(s.text), Alert(SessionInterrupted, false)))
  }

  /**
   * `toggleAmbientLightEstimation`: re-run the session only when the
   * requested value differs from the configuration's.
   */
  function ToggleAmbientLightEstimation(s: Session, enabled: bool): (r: Session)
    ensures r.config.isLightEstimationEnabled == enabled
    ensures s.config.isLightEstimationEnabled == enabled ==> r == s
    ensures s.config.isLightEstimationEnabled != enabled ==> r.runs == s.runs + [Run(r.config, NoOptions)]
    ensures r.config.kind == s.config.kind && r.config.planeDetection == s.config.planeDetection
    ensures r.(config := s.config, runs := s.runs) == s
  {
    if s.config.isLightEstimationEnabled == enabled then s
    else
      var config := s.config.(isLightEstimationEnabled := enabled);
      s.(config := config, runs := s.runs + [Run(config, NoOptions)])
  }

  /** `restartExperience` may proceed: the button is enabled and nothing is loading. */
  predicate CanRestart(s: Session) {
    s.restartEnabled && !s.objects.isLoadingObject
  }

  /**
   * `restartExperience`.  Refused while the button is disabled or an
   * object is loading.  Otherwise, in order: disable the button (and
   * start its 5 s cool-down), withdraw every scheduled message and the
   * alert, switch 3DOF tracking off, set up a new focus square (which
   * prompts after 5 s), unload the object, and restart plane detection.
   */
  function RestartExperience(s: Session): (r: Session)
    ensures !CanRestart(s) ==> r == s
    ensures CanRestart(s) ==>
      && !r.restartEnabled && r.pendingReenables == s.pendingReenables + 1
      && !r.use3DOFTracking
      && r.trackingFallbackTimer.None?
      && r.liveTimers == s.liveTimers - (if s.trackingFallbackTimer.Some? then {s.trackingFallbackTimer.value} else {})
      && r.nextTimerId == s.nextTimerId
      && r.objects == ResetVirtualObject(s.objects)
      && r.text == TextManager(map[FocusSquare := 5.0, PlaneEstimation := 7.5], None, s.text.blurred)
      && r.config.kind == s.config.kind
      && r.config.isLightEstimationEnabled == s.ambientLightSetting
      && r.planes == s.planes
      && r.use3DOFTrackingFallback == s.use3DOFTrackingFallback
  {
    if !CanRestart(s) then s
    else
      var s1 := s.(restartEnabled := false, pendingReenables := s.pendingReenables + 1,
                   text := DismissAlert(CancelAll(s.text)));
      var s2 := SetUse3DOFTracking(s1, false);
      var s3 := s2.(text := Schedule(s2.text, FocusSquare, 5.0));
      var s4 := s3.(objects := ResetVirtualObject(s3.objects));
      RestartPlaneDetection(s4)
  }

  /** The 5 s cool-down started by a restart elapses and the button is enabled again. */
  function RestartCooldownElapsed(s: Session): (r: Session)
    ensures s.pendingReenables == 0 ==> r == s
    ensures s.pendingReenables > 0 ==>
      r.restartEnabled && r == s.(restartEnabled := true, pendingReenables := s.pendingReenables - 1)
  {
    if s.pendingReenables == 0 then s
    else s.(restartEnabled := true, pendingReenables := s.pendingReenables - 1)
  }

  /**
   * `sessionInterruptionEnded`: un-blur, re-run the current configuration
   * from scratch, and restart the experience.
   */
  function SessionInterruptionEnded(s: Session): (r: Session)
    ensures !r.text.blurred
    ensures !CanRestart(s) ==>
      r == s.(text := Unblur(s.text), runs := s.runs + [Run(s.config, ResetAndRemove)])
    ensures CanRestart(s) ==> |r.runs| > |s.runs| && r.runs[|s.runs|] == Run(s.config, ResetAndRemove)
  {
    var s1 := s.(text := Unblur(s.text), runs := s.runs + [Run(s.config, ResetAndRemove)]);
    RestartExperience(s1)
  }

  /**
   * The alert's "Reset" action is tapped: the alert goes away, the image
   * is un-blurred and the experience restarts.  There is nothing to tap
   * unless the alert on screen offers a reset.
   */
  function ResetActionTapped(s: Session): (r: Session)
    ensures !(s.text.alert.Some? && s.text.alert.value.offersReset) ==> r == s
    ensures s.text.alert.Some? && s.text.alert.value.offersReset ==>
      && r.text.alert.None? && !r.text.blurred
      && (CanRestart(s) ==> r.trackingFallbackTimer.None? && r.objects.virtualObject.None?)
  {
    if s.text.alert.Some? && s.text.alert.value.offersReset then
      RestartExperience(s.(text := Unblur(DismissAlert(s.text))))
    else s
  }

  /** The persisted settings applied when the settings popover closes. */
  datatype Settings = Settings(
    ambientLightEstimation: bool,
    dragOnInfinitePlanes: bool,
    use3DOFTracking: bool,
    use3DOFFallback: bool)

  /**
   * Applying the settings: light estimation is toggled, dragging on
   * infinite planes set, `use3DOFTracking` assigned (running its
   * observer) and the fallback switch set, in that order.
   */
  function ApplySettings(s: Session, settings: Settings): (r: Session)
    ensures r.ambientLightSetting == settings.ambientLightEstimation
    ensures r.config.isLightEstimationEnabled == settings.ambientLightEstimation
    ensures r.objects == s.objects.(dragOnInfinitePlanesEnabled := settings.dragOnInfinitePlanes)
    ensures r.use3DOFTracking == settings.use3DOFTracking
    ensures r.use3DOFTrackingFallback == settings.use3DOFFallback
    ensures settings.use3DOFTracking ==> r.config.kind == OrientationTracking
    ensures !settings.use3DOFTracking ==> r.config.kind == s.config.kind
    ensures !settings.use3DOFTracking ==> r.config.planeDetection == s.config.planeDetection
    ensures |r.runs| >= |s.runs| + 1 && r.runs[|r.runs| - 1] == Run(r.config, NoOptions)
    ensures r.runs[..|s.runs|] == s.runs
    ensures r.(config := s.config, runs := s.runs, use3DOFTracking := s.use3DOFTracking,
               use3DOFTrackingFallback := s.use3DOFTrackingFallback,
               ambientLightSetting := s.ambientLightSetting, objects := s.objects) == s
    ensures r.trackingFallbackTimer == s.trackingFallbackTimer && r.liveTimers == s.liveTimers
    ensures r.planes == s.planes && r.text == s.text
  {
    var s1 := s.(ambientLightSetting := settings.ambientLightEstimation);
    var s2 := ToggleAmbientLightEstimation(s1, settings.ambientLightEstimation);
    var s3 := s2.(objects := s2.objects.(dragOnInfinitePlanesEnabled := settings.dragOnInfinitePlanes));
    var s4 := SetUse3DOFTracking(s3, settings.use3DOFTracking);
    s4.(use3DOFTrackingFallback := settings.use3DOFFallback)
  }

  /**
   * The manager when the view has loaded, before it appears: the focus
   * square is set up (prompting after 5 s), the persisted settings are
   * applied (which runs the session once through the `use3DOFTracking`
   * observer) and the virtual object is reset.
   */
  function Launched(settings: Settings): (r: Session)
    ensures r.text.scheduled == map[FocusSquare := 5.0] && r.text.alert.None? && !r.text.blurred
    ensures r.use3DOFTracking == settings.use3DOFTracking
    ensures r.use3DOFTrackingFallback == settings.use3DOFFallback
    ensures r.objects.dragOnInfinitePlanesEnabled == settings.dragOnInfinitePlanes
    ensures r.objects.virtualObject.None? && !r.objects.isLoadingObject
    ensures r.config.kind == (if settings.use3DOFTracking then OrientationTracking else WorldTracking)
    ensures r.config.planeDetection == NoPlaneDetection
    ensures r.config.isLightEstimationEnabled == settings.ambientLightEstimation
    ensures |r.runs| > 0 && r.runs[|r.runs| - 1] == Run(r.config, NoOptions)
    ensures forall i :: 0 <= i < |r.runs| ==> r.runs[i].options == NoOptions
    ensures r.trackingFallbackTimer.None? && r.liveTimers == {}
    ensures r.planes == map[] && r.restartEnabled
  {
    var s0 := InitialSession(settings.ambientLightEstimation);
    var s1 := s0.(text := Schedule(s0.text, FocusSquare, 5.0));
    var s2 := ApplySettings(s1, settings);
    s2.(objects := ResetVirtualObject(s2.objects))
  }

  /**
   * Everything that can happen to the manager.  `Appeared` is the view
   * appearing, which starts the session through `restartPlaneDetection`.
   */
  datatype Event =
    | Appeared
    | PlaneAdded(anchor: PlaneAnchor)
    | PlaneUpdated(anchor: PlaneAnchor)
    | PlaneRemoved(id: AnchorId)
    | TrackingStateChanged(state: TrackingState)
    | FallbackTimerFires(timer: TimerId)
    | SessionDidFail(error: SessionError)
    | Interrupted
    | InterruptionEnded
    | RestartTapped
    | ResetTapped
    | CooldownElapsed
    | SettingsChanged(settings: Settings)
    | ChooseObjectTapped
    | ObjectChosen(index: nat)
    | ObjectDeselected
    | ObjectLoaded(frame: Option<Frame>, lastFocusSquarePos: Option<Vec3>, distance: real)
    | ObjectMoved(frame: Option<Frame>, pos: Option<Vec3>, instantly: bool, filterPosition: bool, distance: real)
    | PlaneRefined(anchor: PlaneAnchor, anchorNode: Option<Vec3 -> Vec3>)

  /** The distances an event carries are the lengths they claim to be. */
  predicate WellFormed(e: Event) {
    match e
    case ObjectLoaded(frame, p, d) => Measured(frame, p.GetOr(Zero), d)
    case ObjectMoved(frame, p, _, _, d) => p.Some? ==> Measured(frame, p.value, d)
    case _ => true
  }

  function Step(s: Session, e: Event): Session
    requires WellFormed(e)
  {
    match e
    case Appeared => RestartPlaneDetection(s)
    case PlaneAdded(a) => AddPlane(s, a)
    case PlaneUpdated(a) => UpdatePlane(s, a)
    case PlaneRemoved(id) => RemovePlane(s, id)
    case TrackingStateChanged(state) => CameraDidChangeTrackingState(s, state)
    case FallbackTimerFires(t) => FallbackTimerFired(s, t)
    case SessionDidFail(error) => DidFailWithError(s, error)
    case Interrupted => SessionWasInterrupted(s)
    case InterruptionEnded => SessionInterruptionEnded(s)
    case RestartTapped => RestartExperience(s)
    case ResetTapped => ResetActionTapped(s)
    case CooldownElapsed => RestartCooldownElapsed(s)
    case SettingsChanged(settings) => ApplySettings(s, settings)
    case ChooseObjectTapped => s.(text := ChooseObject(s.objects, s.text).1)
    case ObjectChosen(index) => s.(objects := LoadVirtualObject(s.objects, index))
    case ObjectDeselected => s.(objects := ResetVirtualObject(s.objects))
    case ObjectLoaded(frame, p, d) => s.(objects := FinishLoading(s.objects, frame, p, d))
    case ObjectMoved(frame, p, instantly, filter, d) =>
      s.(objects := MoveVirtualObjectToPosition(s.objects, frame, p, instantly, filter, d))
    case PlaneRefined(a, node) => s.(objects := CheckIfObjectShouldMoveOntoPlane(s.objects, a, node))
  }

  /**
   * What holds of every reachable state: the held fallback timer is a live
   * one, every live timer was handed out, each plane is filed under its
   * own anchor, 3DOF tracking means an orientation-only configuration
   * without plane detection, and the distance history is well formed.
   */
  predicate Valid(s: Session) {
    && (s.trackingFallbackTimer.Some? ==> Live(s, s.trackingFallbackTimer.value))
    && (forall t :: t in s.liveTimers ==> t < s.nextTimerId)
    && (forall id :: id in s.planes ==> s.planes[id].anchor.id == id)
    && (s.use3DOFTracking ==> s.config.kind == OrientationTracking)
    && (s.config.kind == OrientationTracking ==> s.config.planeDetection == NoPlaneDetection)
    && HistoryValid(s.objects)
  }
}

=== FILE: session_props.dfy ===
/**
 * Properties of the session manager over sequences of events: the state
 * invariant holds in every reachable state, the fallback timer arms,
 * fires and is cancelled as intended, a timer overwritten while tracking
 * stays limited outlives the recovery, and the 3DOF fallback survives a
 * restart.
 */
module SessionProperties {
  import opened Wrappers
  import opened Scene
  import opened TextFeedback
  import opened VirtualObjectManager
  import opened PlacementProperties
  import opened SessionManager

  /** The manager as constructed, before the view has loaded, is valid. */
  lemma InitialIsValid(ambientLightSetting: bool)
    ensures Valid(InitialSession(ambientLightSetting))
  {
  }

  /** Every move, placement, load or snap keeps the distance history well formed. */
  lemma ObjectEventKeepsHistoryValid(s: Session, e: Event)
    requires WellFormed(e) && HistoryValid(s.objects)
    ensures HistoryValid(Step(s, e).objects)
  {
    match e
    case ObjectLoaded(frame, p, d) => FinishLoadingKeepsHistoryValid(s.objects, frame, p, d);
    case ObjectMoved(frame, p, instantly, filter, d) =>
      MoveKeepsHistoryValid(s.objects, frame, p, instantly, filter, d);
    case PlaneRefined(a, node) => SnapKeepsHistoryValid(s.objects, a, node);
    case _ =>
  }

  lemma ObjectEventKeepsValid(s: Session, e: Event)
    requires Valid(s) && WellFormed(e)
    requires e.ChooseObjectTapped? || e.ObjectChosen? || e.ObjectDeselected? || e.ObjectLoaded? || e.ObjectMoved? || e.PlaneRefined?
    ensures Valid(Step(s, e))
  {
    ObjectEventKeepsHistoryValid(s, e);
    assert Step(s, e) == s.(text := Step(s, e).text, objects := Step(s, e).objects);
  }

  lemma SessionEventKeepsValid(s: Session, e: Event)
    requires Valid(s) && WellFormed(e)
    requires !(e.ChooseObjectTapped? || e.ObjectChosen? || e.ObjectDeselected? || e.ObjectLoaded? || e.ObjectMoved? || e.PlaneRefined?)
    ensures Valid(Step(s, e))
  {
    match e
    case Appeared => AppearedKeepsValid(s);
    case PlaneAdded(a) => AddPlaneKeepsValid(s, a);
    case PlaneUpdated(a) => UpdatePlaneKeepsValid(s, a);
    case PlaneRemoved(id) => RemovePlaneKeepsValid(s, id);
    case TrackingStateChanged(state) => TrackingKeepsValid(s, state);
    case FallbackTimerFires(t) => FallbackKeepsValid(s, t);
    case SessionDidFail(error) => ErrorKeepsValid(s, error);
    case Interrupted => InterruptionKeepsValid(s);
    case InterruptionEnded => InterruptionEndedKeepsValid(s);
    case RestartTapped => RestartKeepsValid(s);
    case ResetTapped => ResetKeepsValid(s);
    case CooldownElapsed => CooldownKeepsValid(s);
    case SettingsChanged(settings) => SettingsKeepValid(s, settings);
  }

  lemma AppearedKeepsValid(s: Session)
    requires Valid(s)
    ensures Valid(RestartPlaneDetection(s))
  {
  }

  lemma AddPlaneKeepsValid(s: Session, a: PlaneAnchor)
    requires Valid(s)
    ensures Valid(AddPlane(s, a))
  {
  }

  lemma UpdatePlaneKeepsValid(s: Session, a: PlaneAnchor)
    requires Valid(s)
    ensures Valid(UpdatePlane(s, a))
  {
  }

  lemma RemovePlaneKeepsValid(s: Session, id: AnchorId)
    requires Valid(s)
    ensures Valid(RemovePlane(s, id))
  {
  }

  lemma TrackingKeepsValid(s: Session, state: TrackingState)
    requires Valid(s)
    ensures Valid(CameraDidChangeTrackingState(s, state))
  {
  }

  lemma FallbackKeepsValid(s: Session, t: TimerId)
    requires Valid(s)
    ensures Valid(FallbackTimerFired(s, t))
  {
  }

  lemma ErrorKeepsValid(s: Session, error: SessionError)
    requires Valid(s)
    ensures Valid(DidFailWithError(s, error))
  {
  }

  lemma InterruptionKeepsValid(s: Session)
    requires Valid(s)
    ensures Valid(SessionWasInterrupted(s))
  {
  }

  lemma RestartKeepsValid(s: Session)
    requires Valid(s)
    ensures Valid(RestartExperience(s))
  {
  }

  lemma InterruptionEndedKeepsValid(s: Session)
    requires Valid(s)
    ensures Valid(SessionInterruptionEnded(s))
  {
    RestartKeepsValid(s.(text := Unblur(s.text), runs := s.runs + [Run(s.config, ResetAndRemove)]));
  }

  lemma ResetKeepsValid(s: Session)
    requires Valid(s)
    ensures Valid(ResetActionTapped(s))
  {
    if s.text.alert.Some? && s.text.alert.value.offersReset {
      RestartKeepsValid(s.(text := Unblur(DismissAlert(s.text))));
    }
  }

  lemma CooldownKeepsValid(s: Session)
    requires Valid(s)
    ensures Valid(RestartCooldownElapsed(s))
  {
  }

  lemma SettingsKeepValid(s: Session, settings: Settings)
    requires Valid(s)
    ensures Valid(ApplySettings(s, settings))
  {
  }

  /** The invariant is preserved by every event. */
  lemma StepPreservesValid(s: Session, e: Event)
    requires Valid(s) && WellFormed(e)
    ensures Valid(Step(s, e))
  {
    if e.ChooseObjectTapped? || e.ObjectChosen? || e.ObjectDeselected? || e.ObjectLoaded? || e.ObjectMoved? || e.PlaneRefined? {
      ObjectEventKeepsValid(s, e);
    } else {
      SessionEventKeepsValid(s, e);
    }
  }

  predicate AllWellFormed(events: seq<Event>) {
    forall i :: 0 <= i < |events| ==> WellFormed(events[i])
  }

  /** The state after handling `events` in order. */
  function Replay(s: Session, events: seq<Event>): Session
    requires AllWellFormed(events)
    decreases |events|
  {
    if |events| == 0 then s else Replay(Step(s, events[0]), events[1..])
  }

  /** Every state reachable from a valid one is valid. */
  lemma {:induction false} ReplayPreservesValid(s: Session, events: seq<Event>)
    requires Valid(s) && AllWellFormed(events)
    ensures Valid(Replay(s, events))
    decreases |events|
  {
    if |events| > 0 {
      StepPreservesValid(s, events[0]);
      ReplayPreservesValid(Step(s, events[0]), events[1..]);
    }
  }

  /** The manager is valid once the view has loaded. */
  lemma LaunchedIsValid(settings: Settings)
    ensures Valid(Launched(settings))
  {
  }

  /**
   * When the view appears without 3DOF tracking, the session is run from
   * scratch with world tracking and horizontal plane detection, and the
   * "find a surface" prompt joins the focus-square prompt.
   */
  lemma AppearingStartsPlaneDetection(settings: Settings)
    requires !settings.use3DOFTracking
    ensures
      var loaded := Launched(settings);
      var r := Step(loaded, Appeared);
      && r.config == SessionConfig(WorldTracking, Horizontal, settings.ambientLightEstimation)
      && r.runs == loaded.runs + [Run(r.config, ResetAndRemove)]
      && r.text.scheduled == map[FocusSquare := 5.0, PlaneEstimation := 7.5]
      && r.trackingFallbackTimer.None? && r.liveTimers == {}
  {
  }

  /**
   * With 3DOF tracking saved in the settings, the view appearing leaves
   * the orientation-only configuration alone: plane detection stays off,
   * no run is added, and no run so far reset tracking or removed anchors.
   */
  lemma AppearingWith3DOFDetectsNoPlanes(settings: Settings)
    requires settings.use3DOFTracking
    ensures
      var loaded := Launched(settings);
      var r := Step(loaded, Appeared);
      && r.config.kind == OrientationTracking
      && r.config.planeDetection == NoPlaneDetection
      && r.runs == loaded.runs
      && (forall i :: 0 <= i < |r.runs| ==> r.runs[i].options == NoOptions)
  {
  }

  /** Every state the manager can reach from the constructed manager is valid. */
  lemma ReachableIsValid(ambientLightSetting: bool, events: seq<Event>)
    requires AllWellFormed(events)
    ensures Valid(Replay(InitialSession(ambientLightSetting), events))
  {
    InitialIsValid(ambientLightSetting);
    ReplayPreservesValid(InitialSession(ambientLightSetting), events);
  }

  /** Every state the manager can reach once the view has loaded is valid. */
  lemma ReachableFromLaunchIsValid(settings: Settings, events: seq<Event>)
    requires AllWellFormed(events)
    ensures Valid(Replay(Launched(settings), events))
  {
    LaunchedIsValid(settings);
    ReplayPreservesValid(Launched(settings), events);
  }

  /**
   * With the fallback enabled, limited tracking arms a timer that, when it
   * fires, switches to 3DOF tracking; the set of live timers is then what
   * it was before tracking turned limited.
   */
  lemma LimitedTrackingFallsBackTo3DOF(s: Session)
    requires Valid(s) && s.use3DOFTrackingFallback && s.trackingFallbackTimer.None?
    ensures
      var armed := CameraDidChangeTrackingState(s, Limited);
      var fired := FallbackTimerFired(armed, s.nextTimerId);
      && armed.trackingFallbackTimer == Some(s.nextTimerId)
      && armed.use3DOFTracking == s.use3DOFTracking
      && fired.use3DOFTracking
      && fired.config.kind == OrientationTracking
      && fired.trackingFallbackTimer.None?
      && fired.liveTimers == s.liveTimers
  {
    assert s.nextTimerId !in s.liveTimers;
  }

  /**
   * Tracking that recovers before the timer fires cancels it: the set of
   * live timers is what it was before tracking turned limited, and 3DOF
   * tracking is never switched on.
   */
  lemma RecoveryCancelsFallback(s: Session)
    requires Valid(s) && s.use3DOFTrackingFallback && s.trackingFallbackTimer.None?
    ensures
      var recovered := CameraDidChangeTrackingState(CameraDidChangeTrackingState(s, Limited), Normal);
      && recovered.trackingFallbackTimer.None?
      && recovered.liveTimers == s.liveTimers
      && recovered.use3DOFTracking == s.use3DOFTracking
      && recovered.config == s.config
      && FallbackTimerFired(recovered, s.nextTimerId) == recovered
  {
    assert s.nextTimerId !in s.liveTimers;
  }

  /**
   * Tracking that turns limited twice overwrites the first timer's
   * handle; recovery then cancels only the second timer, and the first
   * still fires and switches to 3DOF tracking although tracking is normal.
   */
  lemma OverwrittenTimerOutlivesRecovery(s: Session)
    requires Valid(s) && s.use3DOFTrackingFallback && s.trackingFallbackTimer.None?
    ensures
      var first := s.nextTimerId;
      var recovered := CameraDidChangeTrackingState(
        CameraDidChangeTrackingState(CameraDidChangeTrackingState(s, Limited), Limited), Normal);
      && recovered.trackingFallbackTimer.None?
      && Live(recovered, first)
      && !Live(recovered, first + 1)
      && FallbackTimerFired(recovered, first).use3DOFTracking
  {
  }

  /**
   * When the overwritten timer fires while the newer one is still held,
   * its block invalidates the newer timer, so only one switch happens.
   */
  lemma OverwrittenTimerCancelsNewer(s: Session)
    requires Valid(s) && s.use3DOFTrackingFallback
    ensures
      var first := s.nextTimerId;
      var twice := CameraDidChangeTrackingState(CameraDidChangeTrackingState(s, Limited), Limited);
      var fired := FallbackTimerFired(twice, first);
      && Live(twice, first) && twice.trackingFallbackTimer == Some(first + 1)
      && fired.use3DOFTracking
      && !Live(fired, first) && !Live(fired, first + 1)
      && FallbackTimerFired(fired, first + 1) == fired
  {
  }

  /**
   * A restart invalidates only the timer the manager holds: a timer
   * orphaned by tracking that turned limited twice stays live through the
   * restart and, when it fires, switches the fresh session to 3DOF
   * tracking.
   */
  lemma OrphanedTimerSurvivesRestart(s: Session)
    requires Valid(s) && s.use3DOFTrackingFallback && s.trackingFallbackTimer.None? && CanRestart(s)
    ensures
      var first := s.nextTimerId;
      var twice := CameraDidChangeTrackingState(CameraDidChangeTrackingState(s, Limited), Limited);
      var restarted := RestartExperience(twice);
      var fired := FallbackTimerFired(restarted, first);
      && restarted.trackingFallbackTimer.None?
      && !restarted.use3DOFTracking
      && Live(restarted, first)
      && !Live(restarted, first + 1)
      && fired.use3DOFTracking
      && fired.config.kind == OrientationTracking
      && fired.config.planeDetection == NoPlaneDetection
  {
  }

  /**
   * Once the configuration is orientation-only, as after the 3DOF
   * fallback, every restart switches `use3DOFTracking` off but keeps that
   * configuration, so plane detection is not re-enabled and no run from
   * scratch happens: the only run is the observer's.
   */
  lemma FallbackSurvivesRestart(s: Session)
    requires Valid(s) && s.config.kind == OrientationTracking && CanRestart(s)
    ensures
      var r := RestartExperience(s);
      && !r.use3DOFTracking
      && r.config.kind == OrientationTracking
      && r.config.planeDetection == NoPlaneDetection
      && r.runs == s.runs + [Run(r.config, NoOptions)]
  {
  }

  /**
   * From world tracking, a restart re-runs the session from scratch with
   * horizontal plane detection, after the observer's run.
   */
  lemma WorldTrackingRestartDetectsPlanes(s: Session)
    requires s.config.kind == WorldTracking && CanRestart(s)
    ensures
      var r := RestartExperience(s);
      && r.config == s.config.(planeDetection := Horizontal, isLightEstimationEnabled := s.ambientLightSetting)
      && |r.runs| == |s.runs| + 2
      && r.runs[|s.runs|] == Run(s.config.(isLightEstimationEnabled := s.ambientLightSetting), NoOptions)
      && r.runs[|s.runs| + 1] == Run(r.config, ResetAndRemove)
  {
  }

  /** A restart disables the button, so a second tap before the cool-down does nothing. */
  lemma RestartIsRefusedUntilCooldown(s: Session)
    requires CanRestart(s)
    ensures
      var r := RestartExperience(s);
      && RestartExperience(r) == r
      && RestartCooldownElapsed(r).restartEnabled
      && CanRestart(RestartCooldownElapsed(r))
  {
  }

  /** Choosing an object starts loading it, and a restart is refused until it is placed. */
  lemma RestartIsRefusedWhileLoading(s: Session, index: nat)
    ensures
      var loading := Step(s, ObjectChosen(index));
      RestartExperience(loading) == loading && ChooseObject(loading.objects, loading.text) == (false, loading.text)
  {
  }

  /** Asking twice for the same light-estimation setting re-runs the session at most once. */
  lemma ToggleIsIdempotent(s: Session, enabled: bool)
    ensures
      var once := ToggleAmbientLightEstimation(s, enabled);
      && ToggleAmbientLightEstimation(once, enabled) == once
      && |once.runs| <= |s.runs| + 1
  {
  }

  /** Adding a surface and removing it again leaves the other surfaces as they were. */
  lemma AddThenRemovePlane(s: Session, anchor: PlaneAnchor)
    ensures RemovePlane(AddPlane(s, anchor), anchor.id).planes == s.planes - {anchor.id}
  {
  }

  /**
   * Whatever the `ARError`, the alert's "Reset" action does something
   * exactly when the error is recoverable.
   */
  lemma ResetOfferedExactlyWhenRecoverable(s: Session, code: ARErrorCode)
    ensures
      var failed := DidFailWithError(s, ARError(code));
      ResetActionTapped(failed) != failed <==> IsRecoverable(code)
  {
  }

  /** Only a world-tracking failure is reported with a reset; a sensor failure is not. */
  lemma ErrorExamples(s: Session)
    ensures DidFailWithError(s, ARError(WorldTrackingFailed)).text.alert == Some(Alert(SessionFailed(true), true))
    ensures DidFailWithError(s, ARError(SensorFailed)).text.alert == Some(Alert(SessionFailed(false), false))
    ensures ResetActionTapped(DidFailWithError(s, ARError(SensorFailed))) == DidFailWithError(s, ARError(SensorFailed))
  {
  }
}

=== FILE: vectors.dfy ===
/**
 * Three-dimensional vectors over the reals, standing for SceneKit's
 * `SCNVector3`, together with the length helpers the placement logic uses
 * (`length`, `normalized`, `setLength`, `setMaximumLength`).
 *
 * Dafny's reals have no square root, so a vector's Euclidean length is never
 * computed here: an operation that needs it receives it as an argument
 * together with the precondition `IsLengthOf(len, v)`, which every vector
 * can meet with exactly one value.
 */
module Vectors {

  datatype Vec3 = Vec3(x: real, y: real, z: real)

  /** `SCNVector3Zero`, the world origin. */
  const Zero := Vec3(0.0, 0.0, 0.0)

  function Add(a: Vec3, b: Vec3): Vec3 {
    Vec3(a.x + b.x, a.y + b.y, a.z + b.z)
  }

  function Sub(a: Vec3, b: Vec3): Vec3 {
    Vec3(a.x - b.x, a.y - b.y, a.z - b.z)
  }

  function Scale(v: Vec3, k: real): Vec3 {
    Vec3(k * v.x, k * v.y, k * v.z)
  }

  function Dot(a: Vec3, b: Vec3): real {
    a.x * b.x + a.y * b.y + a.z * b.z
  }

  function Min(a: real, b: real): real {
    if a <= b then a else b
  }

  /** `len` is the Euclidean length of `v`. */
  predicate IsLengthOf(len: real, v: Vec3) {
    len >= 0.0 && len * len == Dot(v, v)
  }

  /** `a` points the same way as `b`: a strictly positive multiple of it. */
  ghost predicate SameDirection(a: Vec3, b: Vec3) {
    exists k: real :: k > 0.0 && a == Scale(b, k)
  }

  lemma SameDirectionTransitive(a: Vec3, b: Vec3, c: Vec3)
    requires SameDirection(a, b) && SameDirection(b, c)
    ensures SameDirection(a, c)
  {
    var k1 :| k1 > 0.0 && a == Scale(b, k1);
    var k2 :| k2 > 0.0 && b == Scale(c, k2);
    ScaleScale(c, k2, k1);
    assert k1 * k2 > 0.0;
  }

  lemma DotScale(v: Vec3, k: real)
    ensures Dot(Scale(v, k), Scale(v, k)) == k * k * Dot(v, v)
  {
  }

  lemma SubZero(a: Vec3, b: Vec3)
    requires Sub(a, b) == Zero
    ensures a == b
  {
  }

  lemma SubAddCancel(c: Vec3, v: Vec3)
    ensures Sub(Add(c, v), c) == v
  {
  }

  lemma ProductZero(a: real, b: real)
    requires a * b == 0.0
    ensures a == 0.0 || b == 0.0
  {
  }

  lemma ProductPositive(a: real, b: real)
    requires (a > 0.0 && b > 0.0) || (a < 0.0 && b < 0.0)
    ensures a * b > 0.0
  {
  }

  lemma ProductLess(a: real, b: real, c: real, d: real)
    requires 0.0 <= a < c && 0.0 <= b < d
    ensures a * b < c * d
  {
  }

  lemma SquareNonNegative(a: real)
    ensures a * a >= 0.0
  {
    if a != 0.0 {
      ProductPositive(a, a);
    }
  }

  lemma ScaleScale(v: Vec3, a: real, b: real)
    ensures Scale(Scale(v, a), b) == Scale(v, b * a)
  {
  }

  /** A vector has exactly one length. */
  lemma LengthUnique(l1: real, l2: real, v: Vec3)
    requires IsLengthOf(l1, v) && IsLengthOf(l2, v)
    ensures l1 == l2
  {
    if l1 < l2 {
      ProductLess(l1, l1, l2, l2);
    } else if l2 < l1 {
      ProductLess(l2, l2, l1, l1);
    }
  }

  lemma SquaresZero(x: real, y: real, z: real)
    requires x * x + y * y + z * z == 0.0
    ensures x == 0.0 && y == 0.0 && z == 0.0
  {
    SquareNonNegative(x);
    SquareNonNegative(y);
    SquareNonNegative(z);
    assert x * x == 0.0;
    assert y * y == 0.0;
    assert z * z == 0.0;
    ProductZero(x, x);
    ProductZero(y, y);
    ProductZero(z, z);
  }

  /** Only the zero vector has length zero. */
  lemma LengthZero(len: real, v: Vec3)
    requires IsLengthOf(len, v)
    ensures len == 0.0 <==> v == Zero
  {
    if v == Zero {
      ProductZero(len, len);
    } else if len == 0.0 {
      SquaresZero(v.x, v.y, v.z);
    }
  }

  /** Scaling a vector of length `len` by `target / len` gives length `target`. */
  lemma ScaleToLength(v: Vec3, len: real, target: real)
    requires IsLengthOf(len, v) && len > 0.0 && target >= 0.0
    ensures IsLengthOf(target, Scale(v, target / len))
  {
    var q := target / len;
    DotScale(v, q);
    assert q * len == target;
    calc {
      Dot(Scale(v, q), Scale(v, q));
      q * q * Dot(v, v);
      q * q * (len * len);
      (q * len) * (q * len);
      target * target;
    }
  }

  /**
   * `v.normalized()`: the unit vector along `v`, or `v` itself when it is
   * the zero vector.
   */
  function Normalized(v: Vec3, len: real): (r: Vec3)
    requires IsLengthOf(len, v)
    ensures len > 0.0 ==> IsLengthOf(1.0, r) && SameDirection(r, v)
    ensures len == 0.0 ==> r == v
  {
    if len == 0.0 then v
    else
      ScaleToLength(v, len, 1.0);
      Scale(v, 1.0 / len)
  }

  lemma ScaleNormalized(v: Vec3, len: real, target: real)
    requires IsLengthOf(len, v) && len > 0.0
    ensures Scale(Normalized(v, len), target) == Scale(v, target / len)
  {
    ScaleScale(v, 1.0 / len, target);
    assert target * (1.0 / len) == target / len;
  }

  /**
   * `v.setLength(target)`: normalize, then multiply by `target`.  The zero
   * vector has no direction, so it is left as it is.
   */
  function SetLength(v: Vec3, len: real, target: real): (r: Vec3)
    requires IsLengthOf(len, v)
    ensures len > 0.0 && target >= 0.0 ==> IsLengthOf(target, r)
    ensures len > 0.0 && target > 0.0 ==> SameDirection(r, v)
    ensures len == 0.0 ==> r == v
  {
    if len == 0.0 then v
    else
      var r := Scale(Normalized(v, len), target);
      ScaleNormalized(v, len, target);
      assert target >= 0.0 ==> IsLengthOf(target, r) by {
        if target >= 0.0 {
          ScaleToLength(v, len, target);
        }
      }
      r
  }

  /**
   * `v.setMaximumLength(maxLength)`: a vector no longer than `maxLength`
   * is kept as it is; a longer one is shortened to exactly `maxLength`
   * along its own direction.
   */
  function SetMaximumLength(v: Vec3, len: real, maxLength: real): (r: Vec3)
    requires IsLengthOf(len, v) && maxLength > 0.0
    ensures IsLengthOf(Min(len, maxLength), r)
    ensures SameDirection(r, v)
    ensures len <= maxLength ==> r == v
  {
    if len <= maxLength then
      assert v == Scale(v, 1.0);
      v
    else
      var r := SetLength(v, len, maxLength);
      assert r == Scale(v, maxLength / len);
      r
  }
}

=== FILE: wrappers.dfy ===
/** Optional values, standing for Swift's `T?`. */
module Wrappers {

  datatype Option<+T> = None | Some(value: T) {

    /** Swift's `x ?? default`. */
    function GetOr(default: T): T {
      match this
      case Some(v) => v
      case None => default
    }
  }
}
